=== FILE: README.md ===
# Arcade asteroids game: simulation bookkeeping in Dafny

This project models the single-threaded simulation bookkeeping of a small top-down asteroids
arcade game built on the Mylly engine. Drawing, audio and the other engine calls are left out.

The player flies a ship through numbered sectors and shoots rocks. A UFO appears once enough
score has been earned since the last one. Weapon power-up crates drop once enough score has
been earned since the last crate. A lost ship is replaced when the player confirms, until no
spare ships are left.

The model has five parts, one Dafny module per source file or pair of files:

- **Progression** (`game.dfy`, game.cpp): the session record.
  - It holds the score, the two "since last" counters, spare ships, the sector, the weapon tier
    and the completed, respawning and paused flags.
  - It applies the UFO and power-up thresholds, the difficulty ramp, and screen wrap.
  - It handles the confirm-key transitions: advancing a sector, respawning, game over and
    pausing.
  - It makes a queued scene current once the fade-out ends.
- **Play** (`gamescene.dfy`, gamescene.cpp): the game scene.
  - It holds at most one ship, one UFO and one power-up crate, as nullable references.
  - It spawns the ship after a delay, gates the UFO, and handles destruction in a deferred way:
    it sees the kill flag, applies the consequences once and drops the reference.
  - It detects sector completion and drops power-ups.
  - It also contains the frame driver that ties the scene's update, the hand-over to the next
    scene and the game's own update together.
- **Ships**, **Asteroids**, **Projectiles** (`ship.dfy`, `asteroid.dfy`, `projectile.dfy`):
  - who destroys whom on contact;
  - spawn and destroy guards;
  - the asteroid size table;
  - projectile ownership, speed and lifetime;
  - the per-tier fire cooldown and the volley shapes;
  - steering and the speed cap.
- **Scenes** (`scene.dfy`, scene.cpp and scene.h): the scene timers.
  - The camera fade in both directions. Its scene-change signal fires only when a fade-out
    completes.
  - The background slot, which wraps around.
  - The light-flash list, aged and pruned in place.
  - The camera shake.
- **Hud** (`ui.dfy`, ui.cpp): the HUD.
  - The score counter: three registers that roll from the previous score to the target.
  - The spare-ship icons.
  - The timed info labels.

Two more modules support these:

- `common.dfy` holds shared value types.
- `entity.dfy` (module `Entities`) models the engine's `Entity` base class, whose own source is
  not part of this model. It holds only the members the modelled files call, with the contracts
  those callers rely on:
  - `Kill` sets the kill flag;
  - `DecreaseHealth` lowers health by one;
  - `Spawn` and `Destroy` set and clear the spawned flag.

Inheritance is modelled by composition. Each variant class (`Ship`, `Asteroid`, `Projectile`)
holds its `Entity` as `body`. A projectile's owner lives on the base entity, so that a collision
callback that receives a plain entity can ask whether a projectile is the player's.

`Game` never refers to the game scene, so there is no module cycle. The calls game.cpp makes
into the scene are handled as follows:

- `GameScene::RespawnShip`: `Game.Update` returns `respawn`.
- `m_nextScene`: kept as the kind of scene to build (`nextScene: Option<SceneType>`).
- The call from the scene's fade back into `Game::ChangeScene`: `Scene.ProcessFade` returns
  `changeScene`.

The frame driver `Play.Frame` performs these calls.

Times are `real` timestamps supplied by the caller in a `Clock`:

- game time (scaled, and frozen while paused);
- real time.

Scores, counters and levels are unbounded naturals. Where the source relies on unsigned 32-bit
arithmetic (`level - 1` at sector 0) this is written out with `U32Pred`.

## Model

| member | source | states |
|---|---|---|
| `Common.U32Pred` | game.cpp:269 | `n - 1` in unsigned 32-bit arithmetic: the predecessor for a positive `n`, and 2^32-1 for 0 |
| `Entities.Entity.constructor` | projectile.cpp:13-19 | a new entity has the given kind, is neither spawned nor destroyed, has no owner, is collidable, and sits at rest at the origin |
| `Entities.Entity.Spawn` | projectile.cpp:31 | the entity is spawned |
| `Entities.Entity.Destroy` | projectile.cpp:85 | the entity is no longer spawned and counts as destroyed |
| `Entities.Entity.Kill` | projectile.cpp:121 | the kill flag is set |
| `Entities.Entity.DecreaseHealth` | asteroid.cpp:127 | health drops by exactly one |
| `Projectiles.SpeedOf` | projectile.h:24 | 25 units/s if and only if the shot is the player's, 12 if and only if it is not |
| `Projectiles.LifetimeOf` | projectile.cpp:69 | 1 s if and only if the shot is the player's, 2 s if and only if it is not |
| `Projectiles.UnownedShotIsNotPlayers` | projectile.h:23-35 | with the default null owner a shot is not the player's, so it flies and lives like a UFO shot |
| `Projectiles.PlayerShotsFasterButShorterLived` | projectile.h:29-33 | a player's shot is strictly faster than any other shot and expires strictly sooner |
| `Projectiles.ProjectileHandler.constructor` | scene.cpp:84 | a new handler holds no projectile |
| `Projectiles.ProjectileHandler.RemoveReference` | projectile.cpp:78 | exactly that projectile leaves the live set |
| `Projectiles.Projectile.constructor` | projectile.cpp:13-19 | a new shot is not collidable, has bounding radius 0.3, keeps the owner it was given, is not spawned, and has expiry 0 |
| `Projectiles.Projectile.IsOwnedByPlayer` | projectile.h:23 | a shot is the player's if and only if it has an owner and that owner is the ship; an unowned shot never is |
| `Projectiles.Projectile.GetSpeed` | projectile.h:24 | 25 units/s for the player's shot, 12 for any other |
| `Projectiles.Projectile.Spawn` | projectile.cpp:25-70 | afterwards the shot is spawned. Spawning a spawned shot leaves the expiry alone. A first spawn sets expiry = now + lifetime of its owner, unless the sprite is missing, in which case the expiry is untouched |
| `Projectiles.Projectile.Destroy` | projectile.cpp:72-86 | a shot that is not spawned is left alone and the handler is untouched. A spawned shot leaves the handler's live set and ends destroyed and not spawned |
| `Projectiles.Projectile.Update` | projectile.cpp:88-111 | a shot that is not spawned is untouched. A spawned shot moves by exactly velocity·dt. It is destroyed and removed from the handler if and only if it was killed or game time reached its expiry; otherwise it stays live |
| `Projectiles.Projectile.OnCollideWith` | projectile.cpp:113-128 | the shot is killed if and only if the other party is neither its owner nor a projectile, so shots never destroy each other |
| `Scenes.BackgroundSlot` | scene.cpp:89-95 | the stored slot is below 6, congruent to the request modulo 6, and equal to the request when it is already below 6 |
| `Scenes.FadeFactorInRangeAndMonotone` | scene.cpp:353-356 | during a fade the factor `t` (fade-in) or `1 - t` (fade-out), with `t = 1 - (end - now)/0.5`, stays in [0, 1]. It rises with time while fading in and falls while fading out |
| `Scenes.ExpiredIsRatioTest` | scene.cpp:127-129 | for a nonzero duration, the expiry test of a flash is exactly `elapsed / duration >= 1` |
| `Scenes.Expired` | scene.cpp:127-129 | a flash with a positive duration has expired if and only if its elapsed time has reached the duration; with a zero duration, if and only if any time has elapsed |
| `Scenes.Survivors` | scene.cpp:122-136 | pruning never lengthens the list, and no survivor has expired |
| `Scenes.SurvivorsOfConcat` | scene.cpp:122-136 | pruning works flash by flash: pruning a concatenation is the concatenation of the pruned parts, so survivors keep their relative order |
| `Scenes.SurvivorsAreTheUnexpired` | scene.cpp:122-136 | exactly the expired flashes are removed. Every survivor is the aged copy of a listed flash and has not expired, and every listed flash whose aged copy has not expired survives |
| `Scenes.Scene.constructor` | scene.h:73-83 | a fresh scene has no camera, is not fading or shaking, has fade factor 0, background 0 and no flashes |
| `Scenes.Scene.IsFading` | scene.h:55 | a fade is running if and only if its end time is set (nonzero) |
| `Scenes.Scene.IsShaking` | scene.h:58 | the camera shakes if and only if a shake duration is set (nonzero) |
| `Scenes.Scene.GetCameraFadeFactor` | scene.h:42 | the stored fade factor, unchanged |
| `Scenes.Scene.Create` | scene.cpp:74-87 | afterwards the scene has a camera |
| `Scenes.Scene.SetBackground` | scene.cpp:89-95 | the stored index is `BackgroundSlot` of the request |
| `Scenes.Scene.CalculateBoundaries` | scene.cpp:144-165 | without a camera the field is (0,0)-(100,100). With one it is the camera's view widened by 2 units each way |
| `Scenes.Scene.FadeCamera` | scene.cpp:181-197 | the fade ends half a second after now, in the requested direction, with the factor starting at 0 for a fade-in and 1 for a fade-out |
| `Scenes.Scene.ShakeCamera` | scene.cpp:199-204 | a new shake starts with the given intensity and duration and elapsed time 0 |
| `Scenes.Scene.SpawnLightFlash` | scene.cpp:230-253 | exactly one flash, with elapsed time 0 and the given intensity and duration, is appended to the list |
| `Scenes.Scene.ProcessFade` | scene.cpp:332-371 | once real time reaches the end, the fade stops, the factor settles at 0 (fade-in) or 1 (fade-out), and a scene change is requested if and only if it was a fade-out. Before that the end is kept, no change is requested, and the factor follows the progress |
| `Scenes.Scene.ProcessShake` | scene.cpp:373-400 | without a camera nothing changes. With one, elapsed time grows by the real frame time, and the shake ends (duration 0) once elapsed has reached the duration; otherwise the duration is kept |
| `Scenes.Scene.AgeLightFlashes` | scene.cpp:118-136 | the reverse in-place loop leaves exactly `Survivors` of the old list: every flash aged by dt, the expired ones removed |
| `Scenes.Scene.Update` | scene.cpp:112-142 | the flash list becomes `Survivors`. The shake takes exactly one `ShakeStep`: without a camera it is untouched; a running shake gains the real frame time and ends once elapsed has reached the duration, otherwise it keeps its duration. A running fade whose end has been reached stops, with the factor at 0 (fade-in) or 1 (fade-out); one still running keeps its end and its factor follows the progress. A scene change is requested if and only if a fade was running, it was a fade-out, and its end has been reached |
| `Scenes.ShakeRunsOut` | scene.cpp:373-400 | with a camera and frames of positive length every shake ends: after n frames it is idle (duration 0) once the first n - 1 frames cover what remained of it, and its intensity is kept |
| `Scenes.FadeOutHandsOverOnce` | scene.cpp:336-350 | after a frame whose completed fade-out requested the scene change, the next frame does not request it again |
| `Asteroids.StatsDecreaseWithSize` | asteroid.cpp:62-81 | the size table: large (3, 300, 3), medium (2, 150, 2), otherwise (1, 50, 1). Scale, mass and health strictly decrease with size, and health equals scale |
| `Asteroids.ContactDamage` | asteroid.cpp:123-131 | a contact costs a rock one health point if and only if the other party is a player's shot. A UFO shot or another rock costs nothing |
| `Asteroids.AsteroidHandler.constructor` | scene.cpp:83 | a new handler holds no rock and has no requested wave |
| `Asteroids.AsteroidHandler.SpawnInitialAsteroids` | gamescene.cpp:42 | exactly one wave, of the given size and count, is requested |
| `Asteroids.AsteroidHandler.RemoveReference` | asteroid.cpp:115 | exactly that rock leaves the live set |
| `Asteroids.Asteroid.constructor` | asteroid.cpp:17-20 | a new rock is an asteroid entity, neither spawned nor destroyed |
| `Asteroids.Asteroid.Spawn` | asteroid.cpp:26-49 | afterwards the rock is spawned, and spawning it again changes nothing |
| `Asteroids.Asteroid.SetSize` | asteroid.cpp:51-88 | a rock that is not spawned is left exactly as it was. A spawned rock takes the size, the health and mass of the size table, bounding radius 0.8·scale, and max speed = speed multiplier · maximum speed |
| `Asteroids.Asteroid.Destroy` | asteroid.cpp:101-117 | a rock that is not spawned is untouched, as are the handler and the scene. A spawned rock leaves one light flash (intensity 10, 0.25 s), leaves the handler's live set, and ends destroyed and not spawned |
| `Asteroids.Asteroid.OnCollideWith` | asteroid.cpp:119-132 | health drops by exactly `ContactDamage` of the other party |
| `Asteroids.DestroyTwice` | asteroid.cpp:103-105 | destroying a rock twice has exactly the effect of destroying it once |
| `Ships.FireRate` | ship.h:31 | the base tier fires 6 volleys per second, the double tier 5 and the wide tier 3 |
| `Ships.VolleySize` | ship.cpp:192-257 | a volley has 2 shots at the double tier, 4 at the wide tier and 1 otherwise |
| `Ships.DoubleShotsAreParallel` | ship.cpp:205-222 | the two double shots fly along the heading and leave from the muzzle shifted 0.5 to either side, nothing else differing |
| `Ships.WideShotsFormSymmetricArc` | ship.cpp:224-242 | the four wide shots share the muzzle, have strictly increasing angle offsets, are symmetric about the heading, and span exactly 10 degrees |
| `Ships.CooldownGrowsWithTier` | ship.cpp:172-176 | the cooldown between volleys never shrinks as the tier rises (rates 6, 5, 3), while projectiles per second never fall |
| `Ships.Volley` | ship.cpp:203-256 | between 1 and 4 shots, a single shot exactly at the base tier, every shot leaving at the muzzle's distance along the heading |
| `Ships.WrapDegrees` | ship.cpp:124-128 | the wrapped heading is in [0, 360), differs from the input by whole turns, and equals an input already in range |
| `Ships.ClampSpeed` | ship.cpp:146-154 | after the clamp the speed is at most 20. A slow enough velocity is unchanged; a faster one is scaled along its own direction to exactly 20 |
| `Ships.KillsShip` | ship.cpp:185-189 | a rock always kills the ship, a shot kills it if and only if it is not the player's, and the UFO, a crate or a ship never do |
| `Ships.Ship.constructor` | ship.cpp:21-26 | a new ship has mass 200, heading 0 and no cooldown, and is neither spawned nor destroyed |
| `Ships.Ship.Spawn` | ship.cpp:32-38 | afterwards the ship is spawned; spawning again changes nothing |
| `Ships.Ship.Destroy` | ship.cpp:71-83 | a ship that is not spawned is left alone. A spawned ship ends destroyed and not spawned |
| `Ships.Ship.OnCollideWith` | ship.cpp:179-190 | the ship is killed if and only if it was already killed, or the other party is a rock or a shot not fired by the player. The UFO, a crate, another ship or the player's own shot never kill it |
| `Ships.Ship.FireWeapon` | ship.cpp:192-257 | the loop issues exactly the volley of the tier |
| `Ships.Ship.ProcessInput` | ship.cpp:116-177 | the heading changes only under steering, by dt·180·steering and then wrapped. Velocity changes only under thrust: it becomes the old velocity plus heading·thrust·40·dt, passed through `ClampSpeed`, so its speed is at most 20. Position advances by velocity·dt. The weapon fires the tier's volley and re-arms at time + 1/rate if and only if the trigger is held and the cooldown has passed; otherwise nothing is fired and the cooldown is kept |
| `Hud.RollProgress` | ui.cpp:95 | the elapsed fraction of a running roll is in [0, 1), and 0 at the start of the roll |
| `Hud.Gained` | ui.cpp:96 | the truncated share of the distance is at most the distance, and 0 at progress 0 |
| `Hud.CountedScore` | ui.cpp:89-101 | the counter shows a value between the previous and the target score. It shows the previous score at the start of the roll and the target once the roll is over |
| `Hud.CountedScoreIsMonotone` | ui.cpp:93-101 | the counter never runs backwards during a roll |
| `Hud.UI.constructor` | ui.cpp:23-84 | the counter registers and timers are zero and the HUD, the pause menu and the labels are hidden |
| `Hud.UI.IsUpdatingScore` | ui.h:41 | the counter rolls if and only if a roll end time is set (nonzero) |
| `Hud.UI.IsFadingLevelLabel` | ui.h:42 | the info labels are armed to expire if and only if their end time is set (nonzero) |
| `Hud.UI.ToggleHUD` | ui.cpp:134-143 | the HUD takes the requested visibility. Hiding it also hides both info labels; showing it leaves them as they were |
| `Hud.UI.TogglePauseMenu` | ui.cpp:145-148 | the pause menu takes the requested visibility |
| `Hud.UI.SetScore` | ui.cpp:150-157 | current, previous and target all become the amount |
| `Hud.UI.AddScore` | ui.cpp:159-164 | previous becomes the number shown, the target rises by exactly the amount, and the roll ends one second after now |
| `Hud.UI.Update` | ui.cpp:86-132 | an idle counter is untouched. A rolling counter shows `CountedScore`, and once its end is reached it shows the target and goes idle. Armed labels are hidden, and the timer is disarmed, once their time is up; otherwise the labels and the timer are kept |
| `Hud.UI.SetShipCount` | ui.cpp:166-175 | icon i is visible if and only if i < min(ships, 3) |
| `Hud.UI.DisplayInfoLabels` | ui.cpp:219-234 | the big label shows the caption. The help label is visible if and only if a help text is given, and then shows it. The expiry timer is disarmed |
| `Hud.UI.ShowLevelLabel` | ui.cpp:177-190 | shows "SECTOR n", with the help line only in sector 1, and arms a 5-second expiry |
| `Hud.UI.ShowUnsafeRespawnLabel` | ui.cpp:192-196 | shows the unsafe-spawn warning under an empty caption and arms a 2-second expiry |
| `Hud.UI.ShowLevelCompletedLabel` | ui.cpp:198-201 | shows the sector-clear prompt with no expiry |
| `Hud.UI.ShowRespawnLabel` | ui.cpp:203-206 | shows the ship-destroyed prompt with no expiry |
| `Hud.UI.ShowGameOverLabel` | ui.cpp:208-211 | shows the game-over prompt with no expiry |
| `Hud.UI.HideInfoLabels` | ui.cpp:213-217 | both labels are hidden |
| `Hud.AwardAll` | ui.cpp:162 | any sequence of awards leaves the target at the starting score plus the sum of the amounts |
| `Progression.UfoDueBands` | game.cpp:296-309 | a UFO is due if and only if the counter reaches 2500 (sector < 3), 3500 (< 5), 4500 (< 7) or 5000 |
| `Progression.UfoDueIsMonotone` | game.cpp:296-309 | more score never makes a due UFO not due, and a later sector never makes one due sooner |
| `Progression.PowerUpEarned` | game.cpp:311-331 | never at the last tier. At the base tier exactly when the counter reaches 1750; at the double tier exactly when it reaches 3500 |
| `Progression.NextTier` | game.cpp:341-355 | collecting moves the tier one step up, and the last tier stays put |
| `Progression.CollectingNeverLowersTier` | game.cpp:333-356 | any number of collections never lowers the tier, and two or more always reach the last tier |
| `Progression.DifficultyMultiplier` | game.cpp:262-276 | at most 2. It is 1 + (level-1)/9 from sector 1 to 10 and 2 from sector 10 on; sector 0 wraps to the cap |
| `Progression.DifficultyNeverFalls` | game.cpp:262-276 | from sector 1 on the difficulty is at least 1 and never falls |
| `Progression.WrapInto` | game.cpp:182-192 | each coordinate inside the bounds is kept, one above the upper bound moves to the lower bound, and one below the lower bound moves to the upper bound |
| `Progression.WrapLandsInside` | game.cpp:182-192 | with ordered bounds the wrapped position lies within them, and wrapping it again changes nothing |
| `Progression.WithinAsWritten` | game.cpp:172-180 | the test as written: x strictly between the bounds, and y both below and above the lower y bound |
| `Progression.WithinAsWrittenNeverHolds` | game.cpp:172-180 | the test as written holds for no position at all |
| `Progression.WithinAsWrittenMissesTheCentre` | game.cpp:172-180 | the centre of the default 100 by 100 field is reported as outside it by the test as written, and inside it by the corrected test |
| `Progression.WithinIsFixedByWrap` | game.cpp:172-192 | the corrected test agrees with the wrap: a position within the bounds is not moved |
| `Progression.WrapFixesExactlyTheField` | game.cpp:182-192 | with ordered bounds the wrap leaves a position where it is if and only if it lies within the bounds or on them |
| `Progression.Game.constructor` | game.cpp:20-30 | a new session has zero score, ships and sector, the base tier, all flags clear, and no scene |
| `Progression.Game.IsLoadingLevel` | game.cpp:110-118 | a level is loading if and only if a next scene is queued |
| `Progression.Game.ShouldUFOSpawn` | game.cpp:296-309 | never below the first band's 2500 points since the last UFO, and always from 5000 on |
| `Progression.Game.HasPlayerEarnedPowerUp` | game.cpp:311-331 | never once the last tier is held, and never below 1750 points since the last crate |
| `Progression.Game.GetDifficultyMultiplier` | game.cpp:262-276 | at most 2, and at least 1 once a sector is being played |
| `Progression.Game.WrapBoundaries` | game.cpp:182-192 | with ordered bounds the wrapped position lies on the field, and a position within the bounds is returned unchanged |
| `Progression.Game.IsWithinBoundaries` | game.cpp:172-180 | (corrected test) a position within the bounds is left alone by the wrap, and only a field of positive extent contains any position |
| `Progression.Game.SetupGame` | game.cpp:53-64 | the main menu is queued and changed to at once: a fresh menu scene is current, with a camera and its bounds, nothing is queued, the session is unpaused, and score, ships, sector, tier and the respawn prompt are kept |
| `Progression.Game.StartNewGame` | game.cpp:66-82 | score and both counters become 0, the tier the base tier, ships 3 and sector 1, the completed and respawning flags clear. The HUD shows 0 and all icons, and sector 1 is queued behind a fade-out |
| `Progression.Game.LoadLevel` | game.cpp:84-92 | the sector is set, a game scene is queued, and the current scene fades out |
| `Progression.Game.LoadMainMenu` | game.cpp:94-100 | the main menu is queued behind a fade-out and the pause menu is closed |
| `Progression.Game.Update` | game.cpp:102-159 | while loading, nothing changes. Otherwise: a completed sector advances by exactly one on confirm. In a game scene an answered respawn prompt clears respawning when the area is clear, respawns if and only if ships are left, and otherwise queues the menu; a blocked area keeps the prompt and shows the warning. The queued scene is given for every case: the menu after the last ship, the next sector after a confirmed completion, otherwise none. The HUD: a rolling counter shows `CountedScore` at real time now and stops once its end has passed; unless the warning was just shown, expired labels are hidden and live ones kept, with their texts. The HUD and pause-menu visibility never change. A sector advance or a game over starts a fade-out (fully faded, ending half a second later); otherwise the scene's fade is untouched. Score and ships are never touched |
| `Progression.Game.AdvanceSector` | game.cpp:127-132 | on confirm after a completed sector: the flag clears, the sector rises by one, the next game scene is queued and a fade-out starts. Otherwise nothing it may change changes |
| `Progression.Game.AnswerRespawnPrompt` | game.cpp:134-158 | an answered prompt with a clear area closes it and respawns if and only if ships are left, or queues the menu with a fade-out. A blocked area keeps the prompt and shows the warning for its duration. An unanswered prompt changes nothing |
| `Progression.Game.ChangeScene` | game.cpp:194-231 | the queued scene becomes current and gets a camera, and the bounds are taken from it. The session ends up unpaused with the pause menu closed, the completed flag clear and nothing queued. The HUD shows the real score at once. Score, ships, sector, tier and the respawn prompt are kept |
| `Progression.Game.AddScore` | game.cpp:253-260 | the score and both "since last" counters rise by exactly the amount, the HUD roll restarts, and no other session field changes |
| `Progression.Game.OnLevelCompleted` | game.cpp:278-281 | the completed flag is set |
| `Progression.Game.OnShipDestroyed` | game.cpp:283-294 | respawning is set, one ship is used up if any is left (never below 0), the tier drops to the base tier and its counter to 0. The score is untouched |
| `Progression.Game.OnPowerUpCollected` | game.cpp:333-356 | the counter restarts and the tier becomes `NextTier`, never lower |
| `Progression.Game.ResetUFOCounter` | gamescene.cpp:79 | the UFO counter becomes 0, so no UFO is due |
| `Progression.Game.TogglePause` | game.cpp:358-371 | outside a game scene nothing changes. In one, the pause flag flips and the pause menu follows it; the time scale is 0 if and only if paused |
| `Progression.TogglePauseTwice` | game.cpp:358-371 | two toggles leave the pause flag and the time scale as they were |
| `Progression.StartedSession` | game.cpp:53-92 | menu, new game and sector 1 in a row leave a valid, unpaused session in a game scene with three ships and no prompt |
| `Progression.LoseShipAndQuitToMenu` | game.cpp:94-100 | losing a ship, pausing and choosing the main menu ends in the menu with the respawn prompt still open and one ship fewer |
| `Progression.RespawnPromptSurvivesMainMenu` | game.cpp:134-146 | after that trip to the menu, the code as written would answer the prompt there on the next confirm, and the corrected test does not |
| `Play.GameScene.constructor` | gamescene.cpp:17-20 | a new game scene holds no ship, UFO or crate, has no pending arrival, no live rock and no live projectile, and has requested no rock wave |
| `Play.GameScene.SetupLevel` | gamescene.cpp:36-53 | background slot of `level - 1` (unsigned), exactly one wave of 2 + level large rocks, a fade-in, the HUD with the sector label (5-second expiry), and the ship due one time unit after now |
| `Play.GameScene.SpawnPendingShip` | gamescene.cpp:57-65 | once a pending arrival time has come, a new spawned ship appears and the timer is cleared, so it happens once. Otherwise ship and timer are unchanged |
| `Play.GameScene.SpawnUfoIfDue` | gamescene.cpp:68-80 | a UFO appears at the given position, and the counter restarts, if and only if one is due and none is present. Otherwise nothing changes |
| `Play.GameScene.ShowLoss` | gamescene.cpp:102-110 | the icons show the remaining ships; both labels are visible and do not expire; the game-over caption and help show if and only if no ship is left, the respawn ones otherwise |
| `Play.GameScene.LoseShip` | gamescene.cpp:84-111 | the game is told once: a spare ship is used up, the prompt opens, the tier falls back to the base tier and the crate counter restarts. The camera shakes at the explosion intensity from the start, the ship is removed and its reference dropped, and the HUD shows the loss prompt with both labels visible and not expiring |
| `Play.GameScene.UpdateShip` | gamescene.cpp:82-116 | with no ship nothing happens. A destroyed ship is lost once (`LoseShip`), with the tier reset, the crate counter restarted, the camera shaking from the explosion and the loss prompt shown. A live ship takes the input and returns the volley it fired, leaving tier, counters, shake and HUD alone. The score, the UFO and the crate are never touched |
| `Play.GameScene.UpdateUfo` | gamescene.cpp:118-136 | a destroyed UFO is removed, its reference dropped, and exactly 1000 points are added once. Otherwise nothing changes |
| `Play.GameScene.UpdatePowerUp` | gamescene.cpp:138-152 | a collected crate raises the tier one step once and its reference is dropped. Otherwise the tier is unchanged |
| `Play.GameScene.CompleteLevelIfCleared` | gamescene.cpp:162-169 | the sector completes, and the prompt shows, if and only if every rock is gone, no UFO is left and it was not yet completed; so it fires at most once |
| `Play.GameScene.Arrive` | gamescene.cpp:57-80 | a ship whose time has come arrives fresh, spawned, live and ready to fire, and the timer clears; otherwise ship and timer are unchanged. A UFO arrives at the spawn position, and its counter restarts, exactly when one is due and none is present; otherwise UFO and counter are unchanged |
| `Play.GameScene.Payout` | gamescene.cpp:118-152 | a destroyed UFO and a collected crate are dropped and no others; the counters move as `SettleTally` says (1000 points paid once, the tier one step up for a crate). Afterwards no held UFO or crate is destroyed, and a loss prompt on the HUD is kept as it was |
| `Play.GameScene.ArriveAndSteer` | gamescene.cpp:57-116 | in terms of the state before both steps: a due ship arrives fresh and fires at once under the old tier; a live ship keeps flying and fires by its own cooldown; a ship found destroyed is lost, with the explosion shake, the icons and the loss prompt shown; a due UFO arrives fresh at the spawn position. The counters move as `SteerTally` says; the shake is untouched unless the ship is lost |
| `Play.GameScene.SteerAndPay` | gamescene.cpp:57-152 | the arrivals, the ship's turn and the payouts together, stated against the state before the frame: the ship's cases, the explosion shake exactly on a loss, the UFO's arrival or removal, the crate's removal, and the counters as `FrameTally` says |
| `Play.GameScene.UpdateEntities` | gamescene.cpp:57-169 | after the entity steps no reference the scene holds is destroyed and a destroyed UFO has paid exactly once. The sector is completed afterwards if and only if it already was or every rock and the UFO are gone; when it completes in this frame the HUD shows the sector-clear caption. It carries the ship's three cases (arrival, live ship with its volley, loss with icons and, unless the sector completed, the loss prompt), the explosion shake exactly on a loss, the UFO's arrival or removal, the crate's removal, and all counters as `FrameTally` of the state before the frame. The queued scene, the pause flag and the current scene are kept |
| `Play.GameScene.Update` | gamescene.cpp:55-172 | the outcomes of `UpdateEntities` (ship, UFO, crate, counters, completion if and only if already completed or cleared, with the caption when it completes now), followed by the scene's own step: the flashes become `Survivors` of the old list; the shake is one `ShakeStep` from the explosion shake after a loss, or from the old shake otherwise; a finished fade stops at 0 or 1 and a running one follows its progress; the respawn prompt is open afterwards if and only if it was or the ship was lost. A scene change is reported if and only if a running fade-out ended. Queued scene, pause flag, current scene and fade direction are kept, and only the HUD's score, label and icon fields may change |
| `Play.FrameTallySteps` | gamescene.cpp:57-152 | one frame's counters: the score rises only by a UFO payout; a loss uses up a spare (never below zero) and opens the prompt; the tier resets on a loss and then rises one step for a crate; a crate restarts its counter, and a new UFO restarts its own |
| `Play.GameScene.RespawnShip` | gamescene.cpp:174-184 | with a ship present nothing changes. Otherwise a new spawned ship appears and the info labels are hidden |
| `Play.GameScene.OnEntityDestroyed` | gamescene.cpp:186-200 | a crate appears at the destroyed entity's position if and only if it was a rock or UFO, no crate is present and the player has earned one |
| `Play.MakeGameSceneCurrent` | game.cpp:194-231 | a fresh game scene becomes current, with a camera and no ship; nothing is queued any more |
| `Play.EnterGameScene` | game.cpp:222-224 | the new game scene is current and set up: fading in, ship due after the delay |
| `Play.EnterMainMenu` | game.cpp:194-231 | a fresh menu scene becomes current and nothing is queued |
| `Play.HandOver` | scene.cpp:347-348 | when the fade-out ended with a scene queued, the queue empties and a fresh scene of the queued kind becomes current. For a game scene the returned scene is fresh, current, fading in, has no ship, and expects its ship `SHIP_SPAWN_DELAY` after now; for the menu none is returned. In every other case the old scene is returned and the session is unchanged. Ships, score and the respawn prompt are kept |
| `Play.Respond` | game.cpp:102-159 | the outcomes of `Game.Update` on the queued scene, the sector, the completed flag and the respawn prompt: while loading none changes; otherwise the menu is queued after the last ship and the next sector after a confirmed completion, the sector advances by one exactly on that confirm, and an answered prompt stays open if and only if the area is blocked. An answered prompt with a clear area and ships left puts a live ship in the game scene. Ships and score are kept and no destroyed ship is left |
| `Play.Conclude` | game.cpp:102-159 | the end of a frame after the scene's step: the hand-over of `HandOver` (a fresh game scene or none for the menu when a queued scene is taken, the old scene otherwise), then the answer to a respawn prompt: a live ship in the current game scene when ships are left, the menu queued when none are |
| `Play.Frame` | game.cpp:102-159 | one frame leaves a valid session and never returns a scene holding a destroyed ship. When the scene's running fade-out ends with a game scene queued, a fresh scene is returned; with the menu queued, none is; otherwise the same scene is returned. An answered respawn prompt with a clear area puts a live ship in that scene when ships are left and queues the menu when none are |

## Left out

- Rendering and the scene graph, the camera, lighting, particle effects, the fade colour, the
  shake offset, sprites, audio and music, widget creation and layout, the pause-menu buttons
  and the editor. These are engine calls with no state the simulation reads back.
- Randomness: the UFO's spawn position, asteroid directions and rotations, and the shake
  offsets. The UFO spawn position is a parameter of `Play.GameScene.Update`.
- Input polling: steering, thrust, fire and confirm are parameters. Steering and thrust are
  taken as any real value, a superset of what the input handler produces.
- The debug-only godmode key in `GameScene::Update`, which destroys every asteroid.
- The game scene's collaborators whose source is not part of this model:
  - the UFO and power-up classes (bare entities here);
  - `Entity::Update` and `Ship::Update` (drawing and wrap);
  - the asteroid handler's update, splitting, `AllAsteroidsDestroyed` and `IsClearOfAsteroids`,
    whose answers are parameters;
  - the projectile handler's `FireProjectile`: a volley is returned as shot descriptions in the
    ship's frame, and rotating them into the world is left to it;
  - the collision pass.
- `MenuScene`'s own setup and update; menuscene.cpp is not part of this model.
- Trigonometry and square roots: `Ships.Ship.ProcessInput` receives the heading's unit vector
  and the vector length as functions.
  - Headings are degrees with the sign convention of the model. The source converts to radians
    and negates for the shot direction.
  - `math_sanitize_angle_deg` is assumed to wrap into [0, 360) (`Ships.WrapDegrees`).
- Floating point: all times, positions and factors are exact reals, so float rounding and the
  NaN/infinity cases are not modelled. The one place where a zero divisor decides behaviour,
  the flash expiry test, is written out in `Scenes.Expired`.
- 32-bit wrap-around of the score, the counters, the sector number and the HUD target. These
  are unbounded naturals here. Only `level - 1` at sector 0, which the source visibly
  relies on, is modelled (`Common.U32Pred`).
- `Ships.Ship.constructor`: ship.cpp:24 sets the bounding radius to `Ship::RADIUS`, whose value is
  defined in none of the modelled files, so the model leaves it at the entity default 0.
- The session defaults in game.h (not part of this model). `Progression.Game.constructor` starts
  from zero counters, no ships, sector 0, the base tier and no pending scene.
- `Progression.Game.ChangeScene` runs before the new scene's `SetupLevel`; in the source
  `ChangeScene` calls `SetupLevel` part-way through, before it resets the HUD score and the
  completed flag. Neither touches what the other sets, so the final state is the same.
- `Play.HandOver`: a fade-out that completes with nothing queued hands over nothing. The
  source would dereference a null pointer there.
- `Play.Frame` requires that real time is no earlier than the start of the HUD's running score
  roll (the clock does not run backwards). The source relies on this silently.
- `Progression.Game.Update` answers the respawn prompt only in a game scene, which is the
  corrected behaviour of the second finding below.
- `Progression.Game.IsWithinBoundaries` uses the corrected test of the first finding below.

## Findings

| source | as written | input that shows it | evidently intended | confidence | as-written member | corrected member |
|---|---|---|---|---|---|---|
| game.cpp:172-180 | `IsWithinBoundaries` tests `y < min.y && y > min.y`, which no position satisfies, so it always returns false | position (50, 50) with bounds (0, 0)-(100, 100) is reported as outside | `min.y < y < max.y`, mirroring the x test | high; not executed | `Progression.WithinAsWrittenNeverHolds` | `Progression.WithinIsFixedByWrap` |
| game.cpp:134-146 | the respawn prompt is answered in whatever scene is current, and the current scene is cast to `GameScene` | lose a ship with spares left, pause, choose Main Menu. `ChangeScene` unpauses but keeps the prompt open, so Enter in the menu calls `RespawnShip` on a `MenuScene` | answer the prompt only while a game scene is current | medium; not executed | `Progression.RespawnPromptSurvivesMainMenu` | `Progression.Game.Update` |

=== FILE: asteroid.dfy ===
/**
 * Asteroids: the size-tier table, the spawn and destroy guards, and the contact rule that
 * lets only the player's shots damage a rock.
 */
module Asteroids {
  import opened Common
  import opened Entities
  import opened Projectiles
  import opened Scenes

  /** ASTEROID_LARGE, ASTEROID_MEDIUM and ASTEROID_SMALL. */
  datatype AsteroidSize = Large | Medium | Small

  /** What a size tier sets on the rock: model scale, mass and health. */
  datatype SizeStats = SizeStats(scale: real, mass: real, health: int)

  /** The size table; every size other than large and medium gets the small row. */
  function StatsFor(size: AsteroidSize): SizeStats
  {
    match size
    case Large => SizeStats(3.0, 300.0, 3)
    case Medium => SizeStats(2.0, 150.0, 2)
    case _ => SizeStats(1.0, 50.0, 1)
  }

  /** Bigger rocks are strictly larger, heavier and tougher, and a rock's health is its scale. */
  lemma StatsDecreaseWithSize()
    ensures StatsFor(Large).health > StatsFor(Medium).health > StatsFor(Small).health > 0
    ensures StatsFor(Large).scale > StatsFor(Medium).scale > StatsFor(Small).scale > 0.0
    ensures StatsFor(Large).mass > StatsFor(Medium).mass > StatsFor(Small).mass > 0.0
    ensures forall s :: StatsFor(s).health as real == StatsFor(s).scale
  {
  }

  /** The bounding radius of a rock drawn at the given scale. */
  function RadiusFor(scale: real): real
  {
    0.8 * scale
  }

  /** Intensity and lifetime of the light flash a breaking rock leaves behind. */
  const BREAK_FLASH_INTENSITY: real := 10.0
  const BREAK_FLASH_DURATION: real := 0.25

  /** The damage one contact deals to a rock: one point from a player's shot, nothing else. */
  function ContactDamage(other: Entity): (damage: int)
    reads other
    ensures damage == 0 || damage == 1
    ensures damage == 1 <==> other.kind == ProjectileEntity && OwnedByPlayer(other.owner)
    ensures other.kind == AsteroidEntity ==> damage == 0
  {
    if other.kind == ProjectileEntity && OwnedByPlayer(other.owner) then 1 else 0
  }

  /**
   * The asteroid collection of a scene. asteroidhandler.cpp is not part of this model: only the
   * live set, the reference removal an asteroid's Destroy performs, and the initial waves a
   * scene requests (size and count) are given.
   */
  class AsteroidHandler {
    var live: set<Asteroid>
    var requestedWaves: seq<(AsteroidSize, nat)>

    constructor ()
      ensures live == {} && requestedWaves == []
    {
      live := {};
      requestedWaves := [];
    }

    method SpawnInitialAsteroids(size: AsteroidSize, count: nat)
      modifies this`requestedWaves
      ensures requestedWaves == old(requestedWaves) + [(size, count)]
    {
      requestedWaves := requestedWaves + [(size, count)];
    }

    method RemoveReference(a: Asteroid)
      modifies this`live
      ensures live == old(live) - {a}
    {
      live := live - {a};
    }
  }

  class Asteroid {
    const body: Entity
    var size: AsteroidSize
    var maxSpeed: real
    /**
     * GetSpeedMultiplier() and MOVEMENT_SPEED_MAX come from floatingobject.h and asteroid.h,
     * which are not part of this model; they are fixed when the rock is made.
     */
    const speedMultiplier: real
    const movementSpeedMax: real

    constructor (speedMultiplier: real, movementSpeedMax: real)
      ensures fresh(body) && body.kind == AsteroidEntity && !body.spawned && !body.destroyed
      ensures this.speedMultiplier == speedMultiplier && this.movementSpeedMax == movementSpeedMax
    {
      body := new Entity(AsteroidEntity);
      size := Large;
      maxSpeed := 0.0;
      this.speedMultiplier := speedMultiplier;
      this.movementSpeedMax := movementSpeedMax;
    }

    /** Spawning twice is the same as spawning once. */
    method Spawn()
      modifies body`spawned
      ensures body.spawned
    {
      if body.spawned {
        return;
      }
      body.Spawn();
    }

    /**
     * Applies a size tier to a spawned rock: its health, scale-derived bounding radius, mass
     * and maximum speed. A rock that is not spawned is left exactly as it was.
     */
    method SetSize(newSize: AsteroidSize)
      modifies this`size, this`maxSpeed, body`health, body`boundingRadius, body`mass
      ensures !old(body.spawned) ==> size == old(size) && maxSpeed == old(maxSpeed)
      ensures !old(body.spawned) ==>
        body.health == old(body.health) && body.boundingRadius == old(body.boundingRadius) && body.mass == old(body.mass)
      ensures old(body.spawned) ==> size == newSize && body.health == StatsFor(newSize).health
      ensures old(body.spawned) ==>
        body.boundingRadius == RadiusFor(StatsFor(newSize).scale) && body.mass == StatsFor(newSize).mass
      ensures old(body.spawned) ==> maxSpeed == speedMultiplier * movementSpeedMax
    {
      if !body.spawned {
        return;
      }
      size := newSize;
      var scale, mass;
      match newSize {
        case Large =>
          scale, mass := 3.0, 300.0;
          body.health := 3;
        case Medium =>
          scale, mass := 2.0, 150.0;
          body.health := 2;
        case _ =>
          mass, scale := 50.0, 1.0;
          body.health := 1;
      }
      body.boundingRadius := 0.8 * scale;
      body.mass := mass;
      maxSpeed := speedMultiplier * movementSpeedMax;
    }

    /**
     * Destroying a spawned rock leaves a light flash in the scene, removes the handler's
     * reference and then ends the entity; destroying one that is not spawned does nothing.
     */
    method Destroy(handler: AsteroidHandler, scene: Scene)
      modifies body`spawned, body`destroyed, handler`live, scene`lightFlashes
      ensures !old(body.spawned) ==> !body.spawned && body.destroyed == old(body.destroyed)
      ensures !old(body.spawned) ==> handler.live == old(handler.live) && scene.lightFlashes == old(scene.lightFlashes)
      ensures old(body.spawned) ==> !body.spawned && body.destroyed && handler.live == old(handler.live) - {this}
      ensures old(body.spawned) ==>
        scene.lightFlashes == old(scene.lightFlashes) + [LightFlash(BREAK_FLASH_INTENSITY, BREAK_FLASH_DURATION, 0.0)]
    {
      if !body.spawned {
        return;
      }
      scene.SpawnLightFlash(BREAK_FLASH_INTENSITY, BREAK_FLASH_DURATION);
      handler.RemoveReference(this);
      body.Destroy();
    }

    /**
     * A player's shot costs the rock one point of health per contact; a UFO's shot or another
     * rock leaves its health alone (rock-on-rock contact only raises dust, which is drawn).
     */
    method OnCollideWith(other: Entity)
      modifies body`health
      ensures body.health == old(body.health) - ContactDamage(other)
    {
      if other.kind == ProjectileEntity && OwnedByPlayer(other.owner) {
        body.DecreaseHealth();
      }
    }
  }

  /** Destroying a rock twice has exactly the effect of destroying it once. */
  method DestroyTwice(a: Asteroid, handler: AsteroidHandler, scene: Scene)
    modifies a.body, handler, scene
    ensures !a.body.spawned
    ensures handler.live == if old(a.body.spawned) then old(handler.live) - {a} else old(handler.live)
    ensures scene.lightFlashes == old(scene.lightFlashes) +
      (if old(a.body.spawned) then [LightFlash(BREAK_FLASH_INTENSITY, BREAK_FLASH_DURATION, 0.0)] else [])
  {
    a.Destroy(handler, scene);
    a.Destroy(handler, scene);
  }
}

=== FILE: common.dfy ===
/**
 * Shared value types of the arcade simulation: 2D vectors over reals, the frame clock,
 * and the small enumerations (entity kinds, power-up tiers, scene kinds) that the
 * game, scene and entity modules all use.
 */
module Common {

  datatype Option<+T> = None | Some(value: T)

  /** A 2D vector; the engine's `Vec2` of floats, here over `real`. */
  datatype Vec2 = Vec2(x: real, y: real)
  {
    function Plus(other: Vec2): Vec2 { Vec2(x + other.x, y + other.y) }
    function Scale(k: real): Vec2 { Vec2(k * x, k * y) }
    /** Squared length: lengths themselves need a square root, which is foreign here. */
    function Norm2(): real { x * x + y * y }
  }

  /**
   * The engine clock as one frame sees it: `time` and `deltaTime` are scaled by the
   * time scale (zero while paused), `realTime` and `realDeltaTime` are not.
   */
  datatype Clock = Clock(time: real, deltaTime: real, realTime: real, realDeltaTime: real)

  /** ENTITY_* */
  datatype EntityType = AsteroidEntity | ShipEntity | ProjectileEntity | UfoEntity | PowerUpEntity

  /** SCENE_MENU and SCENE_GAME. */
  datatype SceneType = MenuScene | GameScene

  /**
   * The weapon power-up tier, POWERUP_NONE < POWERUP_WEAPON_DOUBLE < POWERUP_WEAPON_WIDE;
   * the tier indexes the three-element fire-rate table of the ship.
   */
  datatype PowerUpTier = NoPowerUp | WeaponDouble | WeaponWide
  {
    function Index(): (i: nat)
      ensures i < 3
    {
      match this
      case NoPowerUp => 0
      case WeaponDouble => 1
      case WeaponWide => 2
    }
  }

  /** LAST_POWERUP: the tier after which nothing more can be earned. */
  const LAST_POWERUP: PowerUpTier := WeaponWide

  /** The value of `n - 1` computed in 32-bit unsigned arithmetic, as `uint32_t` does. */
  function U32Pred(n: nat): (r: nat)
    ensures n > 0 ==> r + 1 == n
    ensures n == 0 ==> r == 0xFFFF_FFFF
  {
    if n == 0 then 0xFFFF_FFFF else n - 1
  }
}

=== FILE: entity.dfy ===
/**
 * The common base of every simulated object (the engine-side `Entity` class).
 *
 * entity.h and entity.cpp are not part of this model: only the members that the modelled
 * files call are given here, each with the smallest contract those callers rely on.
 * The variant classes (Ship, Asteroid, Projectile) hold one of these as their `body`; the UFO
 * and the power-up crate, whose own files are not part of this model either, are bare bodies.
 */
module Entities {
  import opened Common

  class Entity {
    const kind: EntityType
    /** IsSpawned(): set by Spawn, cleared by Destroy. */
    var spawned: bool
    /** IsDestroyed(): the kill flag, set by Kill and by Destroy. */
    var destroyed: bool
    var health: int
    var position: Vec2
    var velocity: Vec2
    var boundingRadius: real
    var mass: real
    var collidable: bool
    /**
     * The entity that fired this one; only projectiles have an owner (Projectile::m_owner,
     * default nullptr). It lives on the base so that a collision callback, which receives the
     * other party as a plain entity, can ask whether a projectile is the player's.
     */
    var owner: Entity?

    constructor (kind: EntityType)
      ensures this.kind == kind
      ensures !spawned && !destroyed && owner == null && collidable
      ensures position == Vec2(0.0, 0.0) && velocity == Vec2(0.0, 0.0)
    {
      this.kind := kind;
      spawned, destroyed := false, false;
      health := 0;
      position, velocity := Vec2(0.0, 0.0), Vec2(0.0, 0.0);
      boundingRadius, mass := 0.0, 0.0;
      collidable := true;
      owner := null;
    }

    /** Entity::Spawn: the object becomes live. */
    method Spawn()
      modifies this`spawned
      ensures spawned
    {
      spawned := true;
    }

    /** Entity::Destroy: the object stops being live and counts as destroyed. */
    method Destroy()
      modifies this`spawned, this`destroyed
      ensures !spawned && destroyed
    {
      spawned, destroyed := false, true;
    }

    /** Entity::Kill: marks the object for removal; its owner performs the removal later. */
    method Kill()
      modifies this`destroyed
      ensures destroyed
    {
      destroyed := true;
    }

    /** Entity::DecreaseHealth: one point of damage. */
    method DecreaseHealth()
      modifies this`health
      ensures health == old(health) - 1
    {
      health := health - 1;
    }
  }
}

=== FILE: game.dfy ===
/**
 * The session state machine of the arcade game: score and its two "since last" counters,
 * spare ships, the sector (level) number, the weapon tier, the completed / respawning / paused
 * flags, and the pending scene change.
 *
 * The game does not know the concrete game scene: where game.cpp calls into it (RespawnShip,
 * the scene's own SetupLevel, its per-frame Update) the methods here report what is due and the
 * frame driver in gamescene.dfy performs it. The pending scene (`m_nextScene`, an object the
 * game allocates) is kept as the kind of scene to build; the driver builds it when the fade-out
 * hands over.
 */
module Progression {
  import opened Common
  import opened Scenes
  import opened Hud

  const INITIAL_SHIPS: nat := 3
  const FIRST_LEVEL: nat := 1
  /** The level at which the difficulty multiplier reaches its cap. */
  const DIFFICULTY_CAP_LEVEL: nat := 10

  /** How much score since the last UFO brings the next one, by sector band. */
  function UfoThreshold(level: nat): nat
  {
    if level < 3 then 2500
    else if level < 5 then 3500
    else if level < 7 then 4500
    else 5000
  }

  /** A UFO is due once the score since the last one reaches the threshold of the sector. */
  predicate UfoDue(level: nat, counter: nat)
  {
    counter >= UfoThreshold(level)
  }

  /** The bands of UfoDue, sector by sector. */
  lemma UfoDueBands(level: nat, counter: nat)
    ensures level < 3 ==> (UfoDue(level, counter) <==> counter >= 2500)
    ensures 3 <= level < 5 ==> (UfoDue(level, counter) <==> counter >= 3500)
    ensures 5 <= level < 7 ==> (UfoDue(level, counter) <==> counter >= 4500)
    ensures 7 <= level ==> (UfoDue(level, counter) <==> counter >= 5000)
  {
  }

  /**
   * More score never makes a due UFO not due, and a later sector never makes a UFO due
   * sooner: the thresholds only rise.
   */
  lemma UfoDueIsMonotone(level: nat, laterLevel: nat, counter: nat, more: nat)
    requires level <= laterLevel && counter <= more
    ensures UfoDue(laterLevel, counter) ==> UfoDue(level, more)
  {
  }

  /**
   * Whether the player has earned the next weapon tier: never at the last tier, from the
   * base tier at 1750 points since the last power-up, from the double tier at 3500.
   */
  function PowerUpEarned(tier: PowerUpTier, counter: nat): (earned: bool)
    ensures tier == LAST_POWERUP ==> !earned
    ensures tier == NoPowerUp ==> (earned <==> counter >= 1750)
    ensures tier == WeaponDouble ==> (earned <==> counter >= 3500)
  {
    if tier == LAST_POWERUP then false
    else if tier == NoPowerUp && counter >= 1750 then true
    else if tier == WeaponDouble && counter >= 3500 then true
    else false
  }

  /** The tier after collecting a crate: one step up, staying at the last tier. */
  function NextTier(tier: PowerUpTier): (next: PowerUpTier)
    ensures tier != LAST_POWERUP ==> next.Index() == tier.Index() + 1
    ensures tier == LAST_POWERUP ==> next == LAST_POWERUP
  {
    match tier
    case NoPowerUp => WeaponDouble
    case WeaponDouble => WeaponWide
    case _ => LAST_POWERUP
  }

  /** Collecting crates never lowers the tier, and enough of them reach the last one. */
  lemma {:induction false} CollectingNeverLowersTier(tier: PowerUpTier, crates: nat)
    ensures tier.Index() <= Collected(tier, crates).Index()
    ensures crates >= 2 ==> Collected(tier, crates) == LAST_POWERUP
    decreases crates
  {
    if crates > 0 {
      CollectingNeverLowersTier(NextTier(tier), crates - 1);
    }
  }

  /** The tier after collecting the given number of crates in a row. */
  function Collected(tier: PowerUpTier, crates: nat): PowerUpTier
    decreases crates
  {
    if crates == 0 then tier else Collected(NextTier(tier), crates - 1)
  }

  /**
   * The UFO difficulty: 1 in the first sector, rising by 1/9 a sector to 2 in the tenth and
   * capped there. `level - 1` is unsigned 32-bit arithmetic, so sector 0 wraps around to the
   * largest value and also gets the cap.
   */
  function DifficultyMultiplier(level: nat): (difficulty: real)
    ensures difficulty <= 2.0
    ensures 1 <= level <= DIFFICULTY_CAP_LEVEL ==> difficulty == 1.0 + ((level - 1) as real) / 9.0
    ensures level >= DIFFICULTY_CAP_LEVEL ==> difficulty == 2.0
    ensures level == 0 ==> difficulty == 2.0
  {
    var raw := 1.0 + (U32Pred(level) as real) / (10.0 - 1.0);
    if raw > 2.0 then 2.0 else raw
  }

  /** From the first sector on, the difficulty is at least 1 and never falls. */
  lemma DifficultyNeverFalls(level: nat, laterLevel: nat)
    requires 1 <= level <= laterLevel
    ensures 1.0 <= DifficultyMultiplier(level) <= DifficultyMultiplier(laterLevel)
  {
  }

  /**
   * Screen wrap: a coordinate below the lower bound moves to the upper bound and one above
   * the upper bound to the lower bound; each test looks at the original position.
   */
  function WrapInto(p: Vec2, lo: Vec2, hi: Vec2): (w: Vec2)
    ensures lo.x <= p.x <= hi.x ==> w.x == p.x
    ensures lo.y <= p.y <= hi.y ==> w.y == p.y
    ensures p.x > hi.x ==> w.x == lo.x
    ensures p.y > hi.y ==> w.y == lo.y
    ensures p.x < lo.x && p.x <= hi.x ==> w.x == hi.x
    ensures p.y < lo.y && p.y <= hi.y ==> w.y == hi.y
  {
    var x := if p.x > hi.x then lo.x else if p.x < lo.x then hi.x else p.x;
    var y := if p.y > hi.y then lo.y else if p.y < lo.y then hi.y else p.y;
    Vec2(x, y)
  }

  /** With ordered bounds, a wrapped position lies within them, so wrapping it again is a no-op. */
  lemma WrapLandsInside(p: Vec2, lo: Vec2, hi: Vec2)
    requires lo.x <= hi.x && lo.y <= hi.y
    ensures var w := WrapInto(p, lo, hi);
      lo.x <= w.x <= hi.x && lo.y <= w.y <= hi.y && WrapInto(w, lo, hi) == w
  {
  }

  /**
   * Game::IsWithinBoundaries as written: its y test asks for a coordinate both below and
   * above the lower bound, so it holds for no position at all.
   */
  predicate WithinAsWritten(p: Vec2, lo: Vec2, hi: Vec2)
    ensures WithinAsWritten(p, lo, hi) ==> lo.x < p.x < hi.x && p.y < lo.y && lo.y < p.y
  {
    p.x > lo.x && p.x < hi.x && p.y < lo.y && p.y > lo.y
  }

  lemma WithinAsWrittenNeverHolds(p: Vec2, lo: Vec2, hi: Vec2)
    ensures !WithinAsWritten(p, lo, hi)
  {
  }

  /** The centre of the default 100 by 100 field is reported as outside it. */
  lemma WithinAsWrittenMissesTheCentre()
    ensures !WithinAsWritten(Vec2(50.0, 50.0), Vec2(0.0, 0.0), Vec2(100.0, 100.0))
    ensures Within(Vec2(50.0, 50.0), Vec2(0.0, 0.0), Vec2(100.0, 100.0))
  {
  }

  /** The intended test: strictly between the bounds on both axes. */
  predicate Within(p: Vec2, lo: Vec2, hi: Vec2)
  {
    lo.x < p.x < hi.x && lo.y < p.y < hi.y
  }

  /**
   * The corrected test agrees with the screen wrap: a position within the bounds is left
   * where it is, and a position the wrap moves is not within them.
   */
  lemma WithinIsFixedByWrap(p: Vec2, lo: Vec2, hi: Vec2)
    ensures Within(p, lo, hi) ==> WrapInto(p, lo, hi) == p
  {
  }

  /**
   * On a field with ordered bounds the wrap leaves exactly the closed field in place: a
   * position is fixed iff it lies within the bounds or on them.
   */
  lemma WrapFixesExactlyTheField(p: Vec2, lo: Vec2, hi: Vec2)
    requires lo.x <= hi.x && lo.y <= hi.y
    ensures WrapInto(p, lo, hi) == p <==> (lo.x <= p.x <= hi.x && lo.y <= p.y <= hi.y)
  {
  }

  class Game {
    var score: nat
    var scoreSinceLastUFO: nat
    var scoreSinceLastPowerUp: nat
    /** Spare ships (lives). */
    var ships: nat
    var currentLevel: nat
    var currentPowerUp: PowerUpTier
    var isLevelCompleted: bool
    var isRespawning: bool
    var isPaused: bool
    /** The engine's time scale: 0 freezes game time, 1 runs it. */
    var timeScale: real
    /** The scene to build when the running fade-out finishes; None when no change is pending. */
    var nextScene: Option<SceneType>
    var boundsMin: Vec2
    var boundsMax: Vec2
    const ui: UI
    /** The scene being played (its shared Scene part). */
    var scene: Scene?

    /**
     * Only a game scene can be paused, the time scale follows the pause flag, and the HUD's
     * counter always rolls towards the real score.
     */
    predicate Valid()
      reads this, ui
    {
      && ui.Valid()
      && (isPaused ==> scene != null && scene.kind == GameScene)
      && timeScale == (if isPaused then 0.0 else 1.0)
      && ui.targetScore == score
    }

    /** Game() with the defaults of the session record; no scene is loaded yet. */
    constructor ()
      ensures Valid() && fresh(ui) && fresh(ui.shipIcons)
      ensures scene == null && nextScene == None
      ensures score == 0 && ships == 0 && currentLevel == 0 && currentPowerUp == NoPowerUp
      ensures !isLevelCompleted && !isRespawning && !isPaused
    {
      score, scoreSinceLastUFO, scoreSinceLastPowerUp := 0, 0, 0;
      ships, currentLevel, currentPowerUp := 0, 0, NoPowerUp;
      isLevelCompleted, isRespawning, isPaused := false, false, false;
      timeScale := 1.0;
      nextScene := None;
      boundsMin, boundsMax := Vec2(0.0, 0.0), Vec2(0.0, 0.0);
      ui := new UI();
      scene := null;
    }

    /** IsLoadingLevel: a scene change is pending behind the fade-out. */
    predicate IsLoadingLevel()
      reads this
      ensures IsLoadingLevel() <==> nextScene != None
    {
      nextScene.Some?
    }

    /** Never below the first band's 2500 points, always from the last band's 5000 on. */
    predicate ShouldUFOSpawn()
      reads this
      ensures ShouldUFOSpawn() ==> scoreSinceLastUFO >= 2500
      ensures scoreSinceLastUFO >= 5000 ==> ShouldUFOSpawn()
    {
      UfoDue(currentLevel, scoreSinceLastUFO)
    }

    /** Never once the top tier is held, and never below the first tier's 1750 points. */
    predicate HasPlayerEarnedPowerUp()
      reads this
      ensures HasPlayerEarnedPowerUp() ==> currentPowerUp != LAST_POWERUP && scoreSinceLastPowerUp >= 1750
    {
      PowerUpEarned(currentPowerUp, scoreSinceLastPowerUp)
    }

    /** Between 1 and 2 once a sector is being played. */
    function GetDifficultyMultiplier(): (difficulty: real)
      reads this
      ensures difficulty <= 2.0
      ensures currentLevel >= 1 ==> 1.0 <= difficulty
    {
      DifficultyMultiplier(currentLevel)
    }

    /** The wrapped position lies on the field, and a position within it is left alone. */
    function WrapBoundaries(p: Vec2): (wrapped: Vec2)
      reads this
      ensures boundsMin.x <= boundsMax.x && boundsMin.y <= boundsMax.y ==>
        boundsMin.x <= wrapped.x <= boundsMax.x && boundsMin.y <= wrapped.y <= boundsMax.y
      ensures Within(p, boundsMin, boundsMax) ==> wrapped == p
    {
      WrapInto(p, boundsMin, boundsMax)
    }

    /** Uses the corrected test (see WithinAsWritten for the code as written). */
    predicate IsWithinBoundaries(p: Vec2)
      reads this
      ensures IsWithinBoundaries(p) ==> WrapInto(p, boundsMin, boundsMax) == p
      ensures IsWithinBoundaries(p) ==> boundsMin.x < boundsMax.x && boundsMin.y < boundsMax.y
    {
      Within(p, boundsMin, boundsMax)
    }

    /** SetupGame: the main menu is queued and changed to at once. */
    method SetupGame(viewMin: Vec2, viewMax: Vec2)
      requires Valid()
      modifies this`isPaused, this`timeScale, this`scene, this`boundsMin, this`boundsMax,
        this`isLevelCompleted, this`nextScene, ui
      ensures Valid() && scene != null && fresh(scene) && scene.kind == MenuScene && scene.hasCamera
      ensures (boundsMin, boundsMax) == scene.CalculateBoundaries(viewMin, viewMax)
      ensures !isPaused && !isLevelCompleted && nextScene == None
      ensures ui.currentScore == score && ui.previousScore == score
      ensures score == old(score) && ships == old(ships) && currentLevel == old(currentLevel)
      ensures isRespawning == old(isRespawning) && currentPowerUp == old(currentPowerUp)
    {
      var menu := new Scene(MenuScene);
      nextScene := Some(MenuScene);
      ChangeScene(menu, viewMin, viewMax);
    }

    /** A fresh session: no score, base weapon, three ships, sector 1 loading. */
    method StartNewGame(realNow: real)
      requires Valid() && scene != null
      modifies this`score, this`scoreSinceLastUFO, this`scoreSinceLastPowerUp, this`currentPowerUp,
        this`ships, this`currentLevel, this`isLevelCompleted, this`isRespawning, this`nextScene,
        ui, ui.shipIcons, scene`fadeFactor, scene`isFadingIn, scene`fadeEffectEnds
      ensures Valid()
      ensures score == 0 && scoreSinceLastUFO == 0 && scoreSinceLastPowerUp == 0
      ensures currentPowerUp == NoPowerUp && ships == INITIAL_SHIPS && currentLevel == FIRST_LEVEL
      ensures !isLevelCompleted && !isRespawning
      ensures ui.currentScore == 0 && forall i :: 0 <= i < ui.shipIcons.Length ==> ui.shipIcons[i]
      ensures nextScene == Some(GameScene) && !scene.isFadingIn && scene.fadeEffectEnds == realNow + FADE_DURATION
    {
      score := 0;
      scoreSinceLastUFO := 0;
      scoreSinceLastPowerUp := 0;
      currentPowerUp := NoPowerUp;
      ships := INITIAL_SHIPS;
      currentLevel := FIRST_LEVEL;
      isLevelCompleted := false;
      isRespawning := false;

      ui.SetScore(0);
      ui.SetShipCount(INITIAL_SHIPS);

      LoadLevel(FIRST_LEVEL, realNow);
    }

    /** Queues a game scene for the given sector behind a fade-out of the current scene. */
    method LoadLevel(level: nat, realNow: real)
      requires scene != null
      modifies this`currentLevel, this`nextScene, scene`fadeFactor, scene`isFadingIn, scene`fadeEffectEnds
      ensures currentLevel == level && nextScene == Some(GameScene)
      ensures !scene.isFadingIn && scene.fadeEffectEnds == realNow + FADE_DURATION && scene.fadeFactor == 1.0
    {
      currentLevel := level;
      nextScene := Some(GameScene);
      scene.FadeCamera(false, realNow);
    }

    /** Queues the main menu behind a fade-out and closes the pause menu. */
    method LoadMainMenu(realNow: real)
      requires scene != null
      modifies this`nextScene, ui`pauseMenuVisible, scene`fadeFactor, scene`isFadingIn, scene`fadeEffectEnds
      ensures nextScene == Some(MenuScene) && !ui.pauseMenuVisible
      ensures !scene.isFadingIn && scene.fadeEffectEnds == realNow + FADE_DURATION
    {
      nextScene := Some(MenuScene);
      scene.FadeCamera(false, realNow);
      ui.TogglePauseMenu(false);
    }

    /**
     * Game::Update as written answers the respawn prompt whenever a ship is awaited, the game
     * is not paused and confirm is held, whatever scene is current.
     */
    predicate AnswersRespawnPromptAsWritten(confirm: bool)
      reads this
    {
      isRespawning && !isPaused && confirm
    }

    /**
     * The prompt belongs to the game scene: only there is there a ship to put back. A session
     * left through the pause menu's main-menu button still awaits a ship, and answering the
     * prompt in the menu would hand the menu scene to GameScene::RespawnShip.
     */
    predicate AnswersRespawnPrompt(confirm: bool)
      reads this
    {
      AnswersRespawnPromptAsWritten(confirm) && scene != null && scene.kind == GameScene
    }

    /**
     * The part of a frame after the scene's own update (which the frame driver runs first).
     * While a scene change is pending nothing happens. Otherwise the HUD is updated, a
     * completed sector advances on confirm, and in a game scene a destroyed ship is replaced
     * on confirm when the spawn area is clear: `respawn` tells the driver to put a new ship in
     * the scene, and with no ships left the main menu is queued instead. `confirm` is the
     * confirm key and `spawnAreaClear` the asteroid handler's answer for the area around the
     * centre.
     */
    method Update(confirm: bool, spawnAreaClear: bool, realNow: real) returns (respawn: bool)
      requires Valid() && scene != null
      requires ui.IsUpdatingScore() ==> ui.scoreCounterEnds - SCORE_COUNTER_DURATION <= realNow
      modifies this`isLevelCompleted, this`currentLevel, this`isRespawning, this`nextScene,
        ui`currentScore, ui`scoreCounterEnds, ui`levelFadeEnds, ui`levelLabelVisible, ui`helpLabelVisible,
        ui`levelText, ui`helpText, scene`fadeFactor, scene`isFadingIn, scene`fadeEffectEnds
      ensures Valid()
      ensures respawn ==> scene.kind == GameScene && ships > 0
      ensures old(IsLoadingLevel()) ==> !respawn && unchanged(this, ui, scene)
      ensures !old(IsLoadingLevel()) && old(isLevelCompleted) && confirm ==>
        !isLevelCompleted && currentLevel == old(currentLevel) + 1
      ensures !(!old(IsLoadingLevel()) && old(isLevelCompleted) && confirm) ==>
        isLevelCompleted == old(isLevelCompleted) && currentLevel == old(currentLevel)
      ensures !old(IsLoadingLevel()) && old(AnswersRespawnPrompt(confirm)) && spawnAreaClear ==>
        !isRespawning && (respawn <==> ships > 0)
      ensures !old(IsLoadingLevel()) && old(AnswersRespawnPrompt(confirm)) && spawnAreaClear && ships == 0 ==>
        nextScene == Some(MenuScene) && !scene.isFadingIn && scene.fadeEffectEnds == realNow + FADE_DURATION
      ensures !old(IsLoadingLevel()) && old(AnswersRespawnPrompt(confirm)) && !spawnAreaClear ==>
        isRespawning && !respawn && ui.helpText == UNSAFE_RESPAWN_HELP && ui.levelFadeEnds == realNow + UNSAFE_RESPAWN_DURATION &&
        ui.levelLabelVisible && ui.helpLabelVisible && ui.levelText == Message("")
      ensures !old(AnswersRespawnPrompt(confirm)) ==> isRespawning == old(isRespawning) && !respawn
      // The queued scene in every branch: the menu on game over, which overrides a sector advance
      // in the same frame; the next sector on an advance; nothing otherwise.
      ensures !old(IsLoadingLevel()) ==>
        nextScene == (if old(AnswersRespawnPrompt(confirm)) && spawnAreaClear && ships == 0 then Some(MenuScene)
                      else if old(isLevelCompleted) && confirm then Some(GameScene)
                      else None)
      // The HUD step: the score roll of UI.Update.
      ensures !old(IsLoadingLevel()) && old(ui.IsUpdatingScore()) ==>
        ui.currentScore == CountedScore(old(ui.previousScore), old(ui.targetScore), old(ui.scoreCounterEnds), realNow)
      ensures !old(IsLoadingLevel()) && old(ui.IsUpdatingScore()) && realNow >= old(ui.scoreCounterEnds) ==>
        !ui.IsUpdatingScore()
      ensures !old(IsLoadingLevel()) && old(ui.IsUpdatingScore()) && realNow < old(ui.scoreCounterEnds) ==>
        ui.scoreCounterEnds == old(ui.scoreCounterEnds)
      ensures !old(ui.IsUpdatingScore()) ==>
        ui.currentScore == old(ui.currentScore) && ui.scoreCounterEnds == old(ui.scoreCounterEnds)
      // The HUD step: the label expiry of UI.Update, unless the unsafe-spawn warning replaces the labels.
      ensures !old(IsLoadingLevel()) && !(old(AnswersRespawnPrompt(confirm)) && !spawnAreaClear) &&
              old(ui.IsFadingLevelLabel()) && realNow >= old(ui.levelFadeEnds) ==>
        !ui.IsFadingLevelLabel() && !ui.levelLabelVisible && !ui.helpLabelVisible
      ensures !(old(AnswersRespawnPrompt(confirm)) && !spawnAreaClear) &&
              !(!old(IsLoadingLevel()) && old(ui.IsFadingLevelLabel()) && realNow >= old(ui.levelFadeEnds)) ==>
        ui.levelFadeEnds == old(ui.levelFadeEnds) &&
        ui.levelLabelVisible == old(ui.levelLabelVisible) && ui.helpLabelVisible == old(ui.helpLabelVisible)
      ensures !(old(AnswersRespawnPrompt(confirm)) && !spawnAreaClear) ==>
        ui.levelText == old(ui.levelText) && ui.helpText == old(ui.helpText)
      ensures ui.hudVisible == old(ui.hudVisible) && ui.pauseMenuVisible == old(ui.pauseMenuVisible)
      // The fade: a fade-out starts on a sector advance or on game over, and is left alone otherwise.
      ensures !old(IsLoadingLevel()) && old(isLevelCompleted) && confirm ==>
        !scene.isFadingIn && scene.fadeEffectEnds == realNow + FADE_DURATION && scene.fadeFactor == 1.0
      ensures !old(IsLoadingLevel()) && old(AnswersRespawnPrompt(confirm)) && spawnAreaClear && ships == 0 ==>
        scene.fadeFactor == 1.0
      ensures !(!old(IsLoadingLevel()) && old(isLevelCompleted) && confirm) &&
              !(!old(IsLoadingLevel()) && old(AnswersRespawnPrompt(confirm)) && spawnAreaClear && ships == 0) ==>
        scene.fadeFactor == old(scene.fadeFactor) && scene.isFadingIn == old(scene.isFadingIn) &&
        scene.fadeEffectEnds == old(scene.fadeEffectEnds)
      ensures score == old(score) && ships == old(ships) && ui.targetScore == old(ui.targetScore)
    {
      respawn := false;
      if IsLoadingLevel() {
        return;
      }

      ui.Update(realNow);
      AdvanceSector(confirm, realNow);
      respawn := AnswerRespawnPrompt(confirm, spawnAreaClear, realNow);
    }

    /** The sector-advance step of Update: a completed sector moves on when confirm is held. */
    method AdvanceSector(confirm: bool, realNow: real)
      requires scene != null
      modifies this`isLevelCompleted, this`currentLevel, this`nextScene,
        scene`fadeFactor, scene`isFadingIn, scene`fadeEffectEnds
      ensures old(isLevelCompleted) && confirm ==>
        !isLevelCompleted && currentLevel == old(currentLevel) + 1 && nextScene == Some(GameScene) &&
        !scene.isFadingIn && scene.fadeEffectEnds == realNow + FADE_DURATION && scene.fadeFactor == 1.0
      ensures !(old(isLevelCompleted) && confirm) ==>
        isLevelCompleted == old(isLevelCompleted) && currentLevel == old(currentLevel) && nextScene == old(nextScene) &&
        unchanged(scene)
    {
      if isLevelCompleted && confirm {
        isLevelCompleted := false;
        LoadLevel(currentLevel + 1, realNow);
      }
    }

    /**
     * The respawn step of Update: an answered prompt either asks for a ship, queues the main
     * menu behind a fade-out when no ship is left, or, with the spawn area blocked, keeps the
     * prompt open and shows the warning.
     */
    method AnswerRespawnPrompt(confirm: bool, spawnAreaClear: bool, realNow: real) returns (respawn: bool)
      requires Valid() && scene != null
      modifies this`isRespawning, this`nextScene, ui`levelFadeEnds, ui`levelLabelVisible, ui`helpLabelVisible,
        ui`levelText, ui`helpText, scene`fadeFactor, scene`isFadingIn, scene`fadeEffectEnds
      ensures Valid()
      ensures respawn ==> scene.kind == GameScene && ships > 0
      ensures old(AnswersRespawnPrompt(confirm)) && spawnAreaClear ==>
        !isRespawning && (respawn <==> ships > 0) && unchanged(ui)
      ensures old(AnswersRespawnPrompt(confirm)) && spawnAreaClear && ships == 0 ==>
        nextScene == Some(MenuScene) && !scene.isFadingIn && scene.fadeEffectEnds == realNow + FADE_DURATION &&
        scene.fadeFactor == 1.0
      ensures old(AnswersRespawnPrompt(confirm)) && !spawnAreaClear ==>
        isRespawning && !respawn && ui.helpText == UNSAFE_RESPAWN_HELP && ui.levelFadeEnds == realNow + UNSAFE_RESPAWN_DURATION &&
        ui.levelLabelVisible && ui.helpLabelVisible && ui.levelText == Message("")
      ensures !old(AnswersRespawnPrompt(confirm)) ==> isRespawning == old(isRespawning) && !respawn && unchanged(ui)
      ensures !(old(AnswersRespawnPrompt(confirm)) && spawnAreaClear && ships == 0) ==>
        nextScene == old(nextScene) && unchanged(scene)
    {
      respawn := false;
      if isRespawning && !isPaused && confirm && scene.kind == GameScene {
        if spawnAreaClear {
          isRespawning := false;
          if ships > 0 {
            respawn := true;
          } else {
            nextScene := Some(MenuScene);
            scene.FadeCamera(false, realNow);
          }
        } else {
          ui.ShowUnsafeRespawnLabel(realNow);
        }
      }
    }

    /**
     * The fade-out has finished: leave the pause, make the queued scene current, create it and
     * take its boundaries, show the real score at once, and clear the completed flag and the
     * pending change. `viewMin` and `viewMax` are the corners of the new camera's view as the
     * engine projects them. The new scene's own SetupLevel is run by the caller afterwards.
     */
    method ChangeScene(next: Scene, viewMin: Vec2, viewMax: Vec2)
      requires Valid() && nextScene == Some(next.kind)
      modifies this`isPaused, this`timeScale, this`scene, this`boundsMin, this`boundsMax,
        this`isLevelCompleted, this`nextScene, ui, next`hasCamera
      ensures Valid()
      ensures scene == next && next.hasCamera
      ensures (boundsMin, boundsMax) == next.CalculateBoundaries(viewMin, viewMax)
      ensures !isPaused && timeScale == 1.0 && !isLevelCompleted && nextScene == None
      ensures ui.currentScore == score && ui.previousScore == score
      ensures old(isPaused) ==> !ui.pauseMenuVisible
      ensures score == old(score) && ships == old(ships) && currentLevel == old(currentLevel)
      ensures isRespawning == old(isRespawning) && currentPowerUp == old(currentPowerUp)
      ensures ui.scoreCounterEnds == old(ui.scoreCounterEnds)
    {
      if isPaused {
        TogglePause();
      }

      scene := next;
      next.Create();
      var bounds := next.CalculateBoundaries(viewMin, viewMax);
      boundsMin, boundsMax := bounds.0, bounds.1;

      ui.SetScore(score);
      isLevelCompleted := false;
      nextScene := None;
    }

    /** Score goes to all three counters and starts the HUD roll; nothing else changes. */
    method AddScore(amount: nat, realNow: real)
      requires Valid()
      modifies this`score, this`scoreSinceLastUFO, this`scoreSinceLastPowerUp,
        ui`previousScore, ui`targetScore, ui`scoreCounterEnds
      ensures Valid()
      ensures score == old(score) + amount
      ensures scoreSinceLastUFO == old(scoreSinceLastUFO) + amount
      ensures scoreSinceLastPowerUp == old(scoreSinceLastPowerUp) + amount
      ensures ui.scoreCounterEnds == realNow + SCORE_COUNTER_DURATION
    {
      score := score + amount;
      scoreSinceLastUFO := scoreSinceLastUFO + amount;
      scoreSinceLastPowerUp := scoreSinceLastPowerUp + amount;

      ui.AddScore(amount, realNow);
    }

    method OnLevelCompleted()
      modifies this`isLevelCompleted
      ensures isLevelCompleted
    {
      isLevelCompleted := true;
    }

    /**
     * Losing the ship: a respawn is awaited, one spare ship is used up if any is left, and the
     * weapon drops back to the base tier with its counter cleared. The score is kept.
     */
    method OnShipDestroyed()
      modifies this`isRespawning, this`ships, this`scoreSinceLastPowerUp, this`currentPowerUp
      ensures isRespawning
      ensures old(ships) > 0 ==> ships == old(ships) - 1
      ensures old(ships) == 0 ==> ships == 0
      ensures scoreSinceLastPowerUp == 0 && currentPowerUp == NoPowerUp
    {
      isRespawning := true;

      if ships > 0 {
        ships := ships - 1;
      }

      scoreSinceLastPowerUp := 0;
      currentPowerUp := NoPowerUp;
    }

    /** A crate collected: the counter restarts and the tier moves one step up. */
    method OnPowerUpCollected()
      modifies this`scoreSinceLastPowerUp, this`currentPowerUp
      ensures scoreSinceLastPowerUp == 0
      ensures currentPowerUp == NextTier(old(currentPowerUp))
      ensures old(currentPowerUp).Index() <= currentPowerUp.Index()
    {
      scoreSinceLastPowerUp := 0;

      match currentPowerUp {
        case NoPowerUp =>
          currentPowerUp := WeaponDouble;
        case WeaponDouble =>
          currentPowerUp := WeaponWide;
        case _ =>
          currentPowerUp := LAST_POWERUP;
      }
    }

    /** ResetUFOCounter: the next UFO needs a full band of score again. */
    method ResetUFOCounter()
      modifies this`scoreSinceLastUFO
      ensures scoreSinceLastUFO == 0 && !ShouldUFOSpawn()
    {
      scoreSinceLastUFO := 0;
    }

    /**
     * Pausing is possible in a game scene only; there it flips the pause flag, freezes or
     * restarts game time, and shows or hides the pause menu to match.
     */
    method TogglePause()
      requires Valid() && scene != null
      modifies this`isPaused, this`timeScale, ui`pauseMenuVisible
      ensures Valid()
      ensures scene.kind != GameScene ==>
        isPaused == old(isPaused) && timeScale == old(timeScale) && ui.pauseMenuVisible == old(ui.pauseMenuVisible)
      ensures scene.kind == GameScene ==> isPaused == !old(isPaused) && ui.pauseMenuVisible == isPaused
      ensures timeScale == 0.0 <==> isPaused
    {
      if scene.kind != GameScene {
        return;
      }

      isPaused := !isPaused;
      timeScale := if isPaused then 0.0 else 1.0;
      ui.TogglePauseMenu(isPaused);
    }
  }

  /** A session in progress: the menu was shown, a new game started and sector 1 loaded. */
  method StartedSession(viewMin: Vec2, viewMax: Vec2) returns (game: Game)
    ensures fresh(game) && fresh(game.ui) && fresh(game.scene) && game.Valid()
    ensures game.scene != null && game.scene.kind == GameScene && game.nextScene == None
    ensures !game.isPaused && !game.isRespawning && game.ships == INITIAL_SHIPS
  {
    game := new Game();
    game.SetupGame(viewMin, viewMax);
    game.StartNewGame(0.0);
    var level := new Scene(GameScene);
    game.ChangeScene(level, viewMin, viewMax);
  }

  /** The ship is lost, the player pauses and picks the main menu, and the menu takes over. */
  method LoseShipAndQuitToMenu(game: Game, viewMin: Vec2, viewMax: Vec2)
    requires game.Valid() && game.scene != null && game.scene.kind == GameScene && game.nextScene == None
    requires !game.isPaused && game.ships == INITIAL_SHIPS
    modifies game, game.ui, game.scene
    ensures game.Valid() && game.scene != null && game.scene.kind == MenuScene
    ensures game.isRespawning && !game.isPaused && game.ships == INITIAL_SHIPS - 1
  {
    game.OnShipDestroyed();
    assert game.Valid() && game.isRespawning && game.ships == 2;
    game.TogglePause();
    assert game.isPaused && game.Valid() && game.scene != null;
    assert game.isRespawning && game.ships == 2;
    game.LoadMainMenu(1.0);
    assert game.Valid() && game.nextScene == Some(MenuScene);
    assert game.isRespawning && game.ships == 2;
    var menu := new Scene(MenuScene);
    game.ChangeScene(menu, viewMin, viewMax);
  }

  /**
   * The respawn prompt survives a trip to the main menu: a ship is lost (two spares left),
   * the player pauses and picks the main menu, and once the menu is current the prompt is
   * still open, so the code as written answers it there on the next confirm while the
   * corrected test does not.
   */
  method RespawnPromptSurvivesMainMenu(viewMin: Vec2, viewMax: Vec2) returns (answeredInMenu: bool)
    ensures answeredInMenu
  {
    var game := StartedSession(viewMin, viewMax);
    LoseShipAndQuitToMenu(game, viewMin, viewMax);
    answeredInMenu := game.scene.kind == MenuScene && game.ships > 0 &&
      game.AnswersRespawnPromptAsWritten(true) && !game.AnswersRespawnPrompt(true);
  }

  /** Pausing twice leaves the pause flag and the flow of game time as they were. */
  method TogglePauseTwice(game: Game)
    requires game.Valid() && game.scene != null
    modifies game`isPaused, game`timeScale, game.ui`pauseMenuVisible
    ensures game.Valid()
    ensures game.isPaused == old(game.isPaused) && game.timeScale == old(game.timeScale)
  {
    game.TogglePause();
    game.TogglePause();
  }
}

=== FILE: gamescene.dfy ===
/**
 * The game scene: one sector of play. It owns at most one player ship, one UFO and one
 * power-up crate, each held as a nullable reference, plus the scene's asteroid and projectile
 * collections. Entities are destroyed in a deferred way: a collision only sets an entity's kill
 * flag, and the scene's per-frame update notices the flag, runs the consequences once and drops
 * the reference.
 *
 * The UFO and the power-up crate are bare entities here (their own classes are not part of
 * this model). Their per-frame updates, the ship's drawing update, the asteroid and projectile
 * collections' updates and the collision pass belong to code that is not part of this model;
 * the facts the scene needs from them (a spawn position drawn at random, whether every asteroid
 * is gone, whether the respawn area is clear) are parameters.
 */
module Play {
  import opened Common
  import opened Entities
  import opened Projectiles
  import opened Scenes
  import opened Asteroids
  import opened Ships
  import opened Hud
  import opened Progression

  /** Score for destroying the UFO. */
  const UFO_REWARD: nat := 1000
  /** Seconds of game time between the start of a sector and the arrival of the ship. */
  const SHIP_SPAWN_DELAY: real := 1.0
  /** The camera shake when the ship explodes. */
  const EXPLOSION_SHAKE_INTENSITY: real := 1.0
  const EXPLOSION_SHAKE_DURATION: real := 0.5
  /** The shake registers right after an explosion. */
  const EXPLOSION_SHAKE: Shake := Shake(EXPLOSION_SHAKE_INTENSITY, EXPLOSION_SHAKE_DURATION, 0.0)
  /** Large asteroids at the start of sector n: 2 + n. */
  const BASE_ASTEROID_COUNT: nat := 2

  /** The session counters that a frame's entity steps change. */
  datatype Tally = Tally(ships: nat, respawning: bool, tier: PowerUpTier, sinceCrate: nat, sinceUfo: nat, score: nat)

  function TallyOf(game: Game): Tally
    reads game
  {
    Tally(game.ships, game.isRespawning, game.currentPowerUp, game.scoreSinceLastPowerUp, game.scoreSinceLastUFO, game.score)
  }

  /**
   * The first half of a frame: a due UFO restarts its counter (ResetUFOCounter), then a ship
   * found destroyed is lost (OnShipDestroyed).
   */
  function SteerTally(t: Tally, ufoArrives: bool, lost: bool): Tally
  {
    var arrived := if ufoArrives then t.(sinceUfo := 0) else t;
    if lost then
      arrived.(ships := if arrived.ships > 0 then arrived.ships - 1 else 0, respawning := true,
               tier := NoPowerUp, sinceCrate := 0)
    else arrived
  }

  /** The second half: a destroyed UFO pays out (AddScore), then a collected crate (OnPowerUpCollected). */
  function SettleTally(t: Tally, paid: bool, collected: bool): Tally
  {
    var rewarded := if paid then
      t.(score := t.score + UFO_REWARD, sinceUfo := t.sinceUfo + UFO_REWARD, sinceCrate := t.sinceCrate + UFO_REWARD)
    else t;
    if collected then rewarded.(tier := NextTier(rewarded.tier), sinceCrate := 0) else rewarded
  }

  /** The counters after the entity steps of one frame, in the order the scene runs them. */
  function FrameTally(t: Tally, ufoArrives: bool, lost: bool, paid: bool, collected: bool): Tally
  {
    SettleTally(SteerTally(t, ufoArrives, lost), paid, collected)
  }

  /**
   * What one frame does to the counters: the score rises only by a UFO payout; a loss uses up
   * a spare ship (never below 0) and opens the respawn prompt; the tier falls back to the base
   * tier on a loss and then rises one step for a collected crate; a collected crate restarts
   * its counter, and a newly arrived UFO restarts its own.
   */
  lemma FrameTallySteps(t: Tally, ufoArrives: bool, lost: bool, paid: bool, collected: bool)
    ensures var r := FrameTally(t, ufoArrives, lost, paid, collected);
      && r.score == t.score + (if paid then UFO_REWARD else 0)
      && (lost ==> r.ships == (if t.ships > 0 then t.ships - 1 else 0) && r.respawning)
      && (!lost ==> r.ships == t.ships && r.respawning == t.respawning)
      && r.tier == NextTierIf(collected, if lost then NoPowerUp else t.tier)
      && (collected ==> r.sinceCrate == 0 && r.tier != NoPowerUp)
      && (!collected && lost ==> r.sinceCrate == (if paid then UFO_REWARD else 0))
      && (!collected && !lost ==> r.sinceCrate == t.sinceCrate + (if paid then UFO_REWARD else 0))
      && (ufoArrives ==> r.sinceUfo == (if paid then UFO_REWARD else 0))
      && (!ufoArrives ==> r.sinceUfo == t.sinceUfo + (if paid then UFO_REWARD else 0))
  {
  }

  function NextTierIf(collected: bool, tier: PowerUpTier): PowerUpTier
  {
    if collected then NextTier(tier) else tier
  }

  /**
   * The HUD shows the prompt that follows a lost ship: both labels visible and not expiring,
   * captioned by whether a spare ship is left.
   */
  predicate ShowsLossPrompt(game: Game)
    reads game, game.ui
  {
    game.ui.levelLabelVisible && game.ui.helpLabelVisible && !game.ui.IsFadingLevelLabel() &&
    game.ui.levelText == Message(if game.ships == 0 then GAME_OVER_CAPTION else SHIP_DESTROYED_CAPTION)
  }

  /** A ship arrival is pending (a nonzero time) and its time has come. */
  predicate ShipDue(spawnTime: real, now: real)
  {
    spawnTime != 0.0 && now >= spawnTime
  }

  class GameScene {
    /** The shared scene state: timers, fade, background, light flashes. */
    const base: Scene
    const asteroids: AsteroidHandler
    const projectiles: ProjectileHandler
    var ship: Ship?
    var ufo: Entity?
    var powerUp: Entity?
    /** Game time at which the ship is to arrive; 0 when no arrival is pending. */
    var playerShipSpawnTime: real

    /** Each slot holds only its own kind of entity, so the three are never the same object. */
    predicate Valid()
      reads this
    {
      && base.kind == GameScene
      && (ship != null ==> ship.body.kind == ShipEntity)
      && (ufo != null ==> ufo.kind == UfoEntity)
      && (powerUp != null ==> powerUp.kind == PowerUpEntity)
    }

    /** The objects the player ship consists of. */
    function ShipParts(): set<object>
      reads this
    {
      if ship == null then {} else {ship, ship.body}
    }

    /** The ship held is found destroyed this frame, and no new ship arrives in its place. */
    predicate LosesShip(clock: Clock)
      reads this, ShipParts()
    {
      !ShipDue(playerShipSpawnTime, clock.time) && ship != null && ship.body.destroyed
    }

    /** A UFO is due and none is present. */
    predicate UfoArrives(game: Game)
      reads this, game
    {
      game.ShouldUFOSpawn() && ufo == null
    }

    /** The UFO held has been destroyed and is to pay out. */
    predicate UfoPaysOut()
      reads this, if ufo == null then {} else {ufo}
    {
      ufo != null && ufo.destroyed
    }

    /** The crate held has been collected. */
    predicate CrateCollected()
      reads this, if powerUp == null then {} else {powerUp}
    {
      powerUp != null && powerUp.destroyed
    }

    /** A game scene around a freshly made shared scene of the game kind. */
    constructor (base: Scene)
      requires base.kind == GameScene
      ensures Valid() && this.base == base && fresh(asteroids) && fresh(projectiles)
      ensures ship == null && ufo == null && powerUp == null && playerShipSpawnTime == 0.0
      ensures asteroids.requestedWaves == [] && asteroids.live == {} && projectiles.live == {}
    {
      this.base := base;
      asteroids := new AsteroidHandler();
      projectiles := new ProjectileHandler();
      ship, ufo, powerUp := null, null, null;
      playerShipSpawnTime := 0.0;
    }

    /**
     * The start of a sector: background `level - 1` (in unsigned arithmetic), 2 + level large
     * asteroids, a fade-in, the HUD with the sector label, and the ship due one time unit later.
     */
    method SetupLevel(game: Game, clock: Clock)
      requires Valid() && game.Valid()
      modifies base`backgroundIndex, base`fadeFactor, base`isFadingIn, base`fadeEffectEnds,
        asteroids`requestedWaves, this`playerShipSpawnTime,
        game.ui`hudVisible, game.ui`levelLabelVisible, game.ui`helpLabelVisible, game.ui`levelText,
        game.ui`helpText, game.ui`levelFadeEnds
      ensures Valid() && game.Valid()
      ensures ship == old(ship) && ufo == old(ufo) && powerUp == old(powerUp)
      ensures base.backgroundIndex == BackgroundSlot(U32Pred(game.currentLevel))
      ensures asteroids.requestedWaves == old(asteroids.requestedWaves) + [(Large, BASE_ASTEROID_COUNT + game.currentLevel)]
      ensures base.isFadingIn && base.fadeEffectEnds == clock.realTime + FADE_DURATION
      ensures game.ui.hudVisible && game.ui.levelLabelVisible && game.ui.levelText == Sector(game.currentLevel)
      ensures game.ui.levelFadeEnds == clock.realTime + LEVEL_DURATION
      ensures playerShipSpawnTime == clock.time + SHIP_SPAWN_DELAY
    {
      base.SetBackground(U32Pred(game.currentLevel));
      asteroids.SpawnInitialAsteroids(Large, BASE_ASTEROID_COUNT + game.currentLevel);
      base.FadeCamera(true, clock.realTime);
      game.ui.ToggleHUD(true);
      game.ui.ShowLevelLabel(game.currentLevel, clock.realTime);
      playerShipSpawnTime := clock.time + SHIP_SPAWN_DELAY;
    }

    /** The delayed arrival of the ship: once its time has come it is made, and the timer cleared. */
    method SpawnPendingShip(clock: Clock)
      modifies this`ship, this`playerShipSpawnTime
      requires Valid()
      ensures Valid()
      ensures old(playerShipSpawnTime) != 0.0 && clock.time >= old(playerShipSpawnTime) ==>
        ship != null && fresh(ship) && fresh(ship.body) && ship.body.spawned && !ship.body.destroyed &&
        ship.nextWeaponFire == 0.0 && playerShipSpawnTime == 0.0
      ensures !(old(playerShipSpawnTime) != 0.0 && clock.time >= old(playerShipSpawnTime)) ==>
        ship == old(ship) && playerShipSpawnTime == old(playerShipSpawnTime)
    {
      if playerShipSpawnTime != 0.0 && clock.time >= playerShipSpawnTime {
        var s := new Ship();
        s.Spawn();
        ship := s;
        playerShipSpawnTime := 0.0;
      }
    }

    /** A UFO appears only when one is due and none is present, and the UFO counter restarts. */
    method SpawnUfoIfDue(game: Game, at: Vec2)
      modifies this`ufo, game`scoreSinceLastUFO
      requires Valid()
      ensures Valid()
      ensures old(game.ShouldUFOSpawn()) && old(ufo) == null ==>
        ufo != null && fresh(ufo) && ufo.spawned && !ufo.destroyed && ufo.position == at &&
        game.scoreSinceLastUFO == 0
      ensures !(old(game.ShouldUFOSpawn()) && old(ufo) == null) ==>
        ufo == old(ufo) && game.scoreSinceLastUFO == old(game.scoreSinceLastUFO)
    {
      if game.ShouldUFOSpawn() && ufo == null {
        var u := new Entity(UfoEntity);
        u.Spawn();
        u.position := at;
        ufo := u;
        game.ResetUFOCounter();
      }
    }

    /** The HUD after a loss: the spare ships, then the game-over or the respawn prompt. */
    method ShowLoss(game: Game)
      requires game.Valid()
      modifies game.ui`levelLabelVisible, game.ui`helpLabelVisible, game.ui`levelText, game.ui`helpText,
        game.ui`levelFadeEnds, game.ui.shipIcons
      ensures game.Valid()
      ensures forall i :: 0 <= i < game.ui.shipIcons.Length ==>
        game.ui.shipIcons[i] == (i < Min(game.ships, SHIP_ICON_COUNT))
      ensures game.ui.levelLabelVisible && game.ui.helpLabelVisible && !game.ui.IsFadingLevelLabel()
      ensures game.ships == 0 ==> game.ui.levelText == Message(GAME_OVER_CAPTION) && game.ui.helpText == GAME_OVER_HELP
      ensures game.ships > 0 ==>
        game.ui.levelText == Message(SHIP_DESTROYED_CAPTION) && game.ui.helpText == SHIP_DESTROYED_HELP
    {
      game.ui.SetShipCount(game.ships);
      if game.ships == 0 {
        game.ui.ShowGameOverLabel();
      } else {
        game.ui.ShowRespawnLabel();
      }
    }

    /**
     * A ship found destroyed: the game is told once, the camera shakes, the ship is removed and
     * the reference dropped; the HUD then shows the loss.
     */
    method LoseShip(game: Game)
      requires Valid() && game.Valid() && ship != null
      modifies this`ship, ship.body`spawned, ship.body`destroyed,
        game`isRespawning, game`ships, game`scoreSinceLastPowerUp, game`currentPowerUp,
        base`shakeIntensity, base`shakeDuration, base`shakeElapsed,
        game.ui`levelLabelVisible, game.ui`helpLabelVisible, game.ui`levelText, game.ui`helpText,
        game.ui`levelFadeEnds, game.ui.shipIcons
      ensures Valid() && game.Valid()
      ensures ship == null && !old(ship).body.spawned
      ensures game.isRespawning && game.currentPowerUp == NoPowerUp && game.scoreSinceLastPowerUp == 0
      ensures game.ships == (if old(game.ships) > 0 then old(game.ships) - 1 else 0)
      ensures base.IsShaking() && base.shakeDuration == EXPLOSION_SHAKE_DURATION
      ensures base.shakeIntensity == EXPLOSION_SHAKE_INTENSITY && base.shakeElapsed == 0.0
      ensures forall i :: 0 <= i < game.ui.shipIcons.Length ==>
        game.ui.shipIcons[i] == (i < Min(game.ships, SHIP_ICON_COUNT))
      ensures game.ui.levelLabelVisible && game.ui.helpLabelVisible && !game.ui.IsFadingLevelLabel()
      ensures game.ships == 0 ==> game.ui.levelText == Message(GAME_OVER_CAPTION) && game.ui.helpText == GAME_OVER_HELP
      ensures game.ships > 0 ==>
        game.ui.levelText == Message(SHIP_DESTROYED_CAPTION) && game.ui.helpText == SHIP_DESTROYED_HELP
    {
      game.OnShipDestroyed();
      base.ShakeCamera(EXPLOSION_SHAKE_INTENSITY, EXPLOSION_SHAKE_DURATION);
      ship.Destroy();
      ship := null;
      ShowLoss(game);
    }

    /**
     * The ship's turn: a ship found destroyed is lost (above); a live ship takes the frame's
     * input and returns the volley it fired, if any.
     */
    method UpdateShip(game: Game, clock: Clock, input: ShipInput,
                      direction: real -> Vec2, length: Vec2 -> real) returns (volley: seq<Shot>)
      requires Valid() && game.Valid()
      requires forall w :: 0.0 <= length(w) && length(w) * length(w) == w.Norm2()
      modifies this`ship, ShipParts(), game`isRespawning, game`ships, game`scoreSinceLastPowerUp,
        game`currentPowerUp, base`shakeIntensity, base`shakeDuration, base`shakeElapsed,
        game.ui`levelLabelVisible, game.ui`helpLabelVisible, game.ui`levelText, game.ui`helpText,
        game.ui`levelFadeEnds, game.ui.shipIcons
      ensures Valid() && game.Valid()
      ensures ship != null ==> !ship.body.destroyed
      ensures ufo != null ==> ufo.destroyed == old(ufo.destroyed) && ufo.position == old(ufo.position)
      ensures powerUp != null ==> powerUp.destroyed == old(powerUp.destroyed)
      ensures game.score == old(game.score) && game.ui.scoreCounterEnds == old(game.ui.scoreCounterEnds)
      ensures old(ship) == null ==>
        ship == null && volley == [] && game.ships == old(game.ships) && game.isRespawning == old(game.isRespawning)
      ensures old(ship) != null && old(ship.body.destroyed) ==>
        ship == null && volley == [] && game.isRespawning &&
        game.ships == (if old(game.ships) > 0 then old(game.ships) - 1 else 0) &&
        game.currentPowerUp == NoPowerUp && game.scoreSinceLastPowerUp == 0
      ensures old(ship) != null && old(ship.body.destroyed) ==>
        (forall i :: 0 <= i < game.ui.shipIcons.Length ==> game.ui.shipIcons[i] == (i < Min(game.ships, SHIP_ICON_COUNT))) &&
        game.ui.levelLabelVisible && game.ui.helpLabelVisible && !game.ui.IsFadingLevelLabel() &&
        game.ui.levelText == Message(if game.ships == 0 then GAME_OVER_CAPTION else SHIP_DESTROYED_CAPTION)
      ensures !(old(ship) != null && old(ship.body.destroyed)) ==>
        game.currentPowerUp == old(game.currentPowerUp) && game.scoreSinceLastPowerUp == old(game.scoreSinceLastPowerUp) &&
        unchanged(game.ui)
      ensures base.ShakeOf() == (if old(ship) != null && old(ship.body.destroyed) then EXPLOSION_SHAKE else old(base.ShakeOf()))
      ensures old(ship) != null && !old(ship.body.destroyed) ==>
        ship == old(ship) && game.ships == old(game.ships) && game.isRespawning == old(game.isRespawning) &&
        volley == (if input.firing && clock.time >= old(ship.nextWeaponFire) then Volley(game.currentPowerUp) else [])
    {
      volley := [];
      if ship == null {
        return;
      }
      if ship.body.destroyed {
        LoseShip(game);
      } else {
        volley := ship.ProcessInput(input, clock, game.currentPowerUp, direction, length);
      }
    }

    /** A UFO found destroyed is removed, its reference dropped, and the player paid once. */
    method UpdateUfo(game: Game, realNow: real)
      requires Valid() && game.Valid()
      modifies this`ufo, ufo, game`score, game`scoreSinceLastUFO, game`scoreSinceLastPowerUp,
        game.ui`previousScore, game.ui`targetScore, game.ui`scoreCounterEnds
      ensures Valid() && game.Valid()
      ensures old(ufo) != null && old(ufo.destroyed) ==>
        ufo == null && !old(ufo).spawned && game.score == old(game.score) + UFO_REWARD &&
        game.ui.scoreCounterEnds == realNow + SCORE_COUNTER_DURATION
      ensures ufo != null ==> !ufo.destroyed
      ensures !(old(ufo) != null && old(ufo.destroyed)) ==>
        ufo == old(ufo) && game.score == old(game.score) && game.ui.scoreCounterEnds == old(game.ui.scoreCounterEnds)
      ensures game.scoreSinceLastUFO ==
        old(game.scoreSinceLastUFO) + (if old(ufo) != null && old(ufo.destroyed) then UFO_REWARD else 0)
      ensures game.scoreSinceLastPowerUp ==
        old(game.scoreSinceLastPowerUp) + (if old(ufo) != null && old(ufo.destroyed) then UFO_REWARD else 0)
      ensures ufo != null ==> ufo.position == old(ufo.position)
    {
      if ufo != null && ufo.destroyed {
        ufo.Destroy();
        ufo := null;
        game.AddScore(UFO_REWARD, realNow);
      }
    }

    /** A crate found destroyed (collected) upgrades the weapon once; its reference is dropped. */
    method UpdatePowerUp(game: Game)
      requires Valid()
      modifies this`powerUp, powerUp, game`scoreSinceLastPowerUp, game`currentPowerUp
      ensures Valid()
      ensures old(powerUp) != null && old(powerUp.destroyed) ==>
        powerUp == null && !old(powerUp).spawned && game.currentPowerUp == NextTier(old(game.currentPowerUp)) &&
        game.scoreSinceLastPowerUp == 0
      ensures powerUp != null ==> !powerUp.destroyed
      ensures !(old(powerUp) != null && old(powerUp.destroyed)) ==>
        powerUp == old(powerUp) && game.currentPowerUp == old(game.currentPowerUp) &&
        game.scoreSinceLastPowerUp == old(game.scoreSinceLastPowerUp)
    {
      if powerUp != null && powerUp.destroyed {
        game.OnPowerUpCollected();
        powerUp.Destroy();
        powerUp := null;
      }
    }

    /**
     * The sector is cleared when no asteroid and no UFO is left; this fires once, because it
     * sets the completed flag that it requires to be clear.
     */
    method CompleteLevelIfCleared(game: Game, allAsteroidsDestroyed: bool)
      modifies game`isLevelCompleted, game.ui`levelLabelVisible, game.ui`helpLabelVisible,
        game.ui`levelText, game.ui`helpText, game.ui`levelFadeEnds
      ensures allAsteroidsDestroyed && ufo == null && !old(game.isLevelCompleted) ==>
        game.isLevelCompleted && game.ui.levelText == Message(LEVEL_COMPLETED_CAPTION) && game.ui.levelLabelVisible
      ensures !(allAsteroidsDestroyed && ufo == null && !old(game.isLevelCompleted)) ==>
        game.isLevelCompleted == old(game.isLevelCompleted) && unchanged(game.ui)
    {
      if allAsteroidsDestroyed && ufo == null && !game.isLevelCompleted {
        game.OnLevelCompleted();
        game.ui.ShowLevelCompletedLabel();
      }
    }

    /** The arrivals of a frame: the pending ship, then a UFO if one is due. */
    method Arrive(game: Game, clock: Clock, ufoSpawnAt: Vec2)
      requires Valid()
      modifies this`ship, this`playerShipSpawnTime, this`ufo, game`scoreSinceLastUFO
      ensures Valid()
      ensures ship != old(ship) ==> ship != null && fresh(ship.body) && !ship.body.destroyed
      ensures ufo != old(ufo) ==> old(ufo) == null && ufo != null && fresh(ufo) && !ufo.destroyed
      ensures old(playerShipSpawnTime) != 0.0 && clock.time >= old(playerShipSpawnTime) ==>
        ship != null && fresh(ship) && fresh(ship.body) && ship.body.spawned && !ship.body.destroyed &&
        ship.nextWeaponFire == 0.0 && playerShipSpawnTime == 0.0
      ensures !(old(playerShipSpawnTime) != 0.0 && clock.time >= old(playerShipSpawnTime)) ==>
        ship == old(ship) && playerShipSpawnTime == old(playerShipSpawnTime)
      ensures old(game.ShouldUFOSpawn()) && old(ufo) == null ==>
        ufo != null && ufo.spawned && ufo.position == ufoSpawnAt && game.scoreSinceLastUFO == 0
      ensures !(old(game.ShouldUFOSpawn()) && old(ufo) == null) ==>
        ufo == old(ufo) && game.scoreSinceLastUFO == old(game.scoreSinceLastUFO)
    {
      SpawnPendingShip(clock);
      SpawnUfoIfDue(game, ufoSpawnAt);
    }

    /** The removals of a frame: a destroyed UFO pays out, then a collected crate upgrades the weapon. */
    method Payout(game: Game, realNow: real)
      requires Valid() && game.Valid()
      modifies this`ufo, this`powerUp, ufo, powerUp, game`score, game`scoreSinceLastUFO,
        game`scoreSinceLastPowerUp, game`currentPowerUp,
        game.ui`previousScore, game.ui`targetScore, game.ui`scoreCounterEnds
      ensures Valid() && game.Valid()
      ensures ufo != null ==> !ufo.destroyed
      ensures powerUp != null ==> !powerUp.destroyed
      ensures game.ui.scoreCounterEnds == old(game.ui.scoreCounterEnds) ||
        game.ui.scoreCounterEnds == realNow + SCORE_COUNTER_DURATION
      ensures ufo == (if old(UfoPaysOut()) then null else old(ufo))
      ensures ufo != null ==> ufo.position == old(ufo.position)
      ensures powerUp == (if old(CrateCollected()) then null else old(powerUp))
      ensures TallyOf(game) == SettleTally(old(TallyOf(game)), old(UfoPaysOut()), old(CrateCollected()))
      // A prompt on the HUD stays as it is: paying out touches only the score counter.
      ensures ShowsLossPrompt(game) == old(ShowsLossPrompt(game))
    {
      UpdateUfo(game, realNow);
      UpdatePowerUp(game);
    }

    /**
     * The arrivals of a frame and then the ship's turn, stated in terms of the state before
     * both: a due ship arrives and takes the input at once, a ship found destroyed is lost.
     */
    method ArriveAndSteer(game: Game, clock: Clock, input: ShipInput, direction: real -> Vec2,
                          length: Vec2 -> real, ufoSpawnAt: Vec2) returns (volley: seq<Shot>)
      requires Valid() && game.Valid()
      requires forall w :: 0.0 <= length(w) && length(w) * length(w) == w.Norm2()
      modifies this`ship, this`playerShipSpawnTime, this`ufo, ShipParts(), game`scoreSinceLastUFO,
        game`isRespawning, game`ships, game`scoreSinceLastPowerUp, game`currentPowerUp,
        base`shakeIntensity, base`shakeDuration, base`shakeElapsed,
        game.ui`levelLabelVisible, game.ui`helpLabelVisible, game.ui`levelText, game.ui`helpText,
        game.ui`levelFadeEnds, game.ui.shipIcons
      ensures Valid() && game.Valid()
      ensures ship != null ==> !ship.body.destroyed
      ensures UfoPaysOut() == old(UfoPaysOut()) && CrateCollected() == old(CrateCollected())
      ensures TallyOf(game) == SteerTally(old(TallyOf(game)), old(UfoArrives(game)), old(LosesShip(clock)))
      ensures base.ShakeOf() == (if old(LosesShip(clock)) then EXPLOSION_SHAKE else old(base.ShakeOf()))
      ensures ShipDue(old(playerShipSpawnTime), clock.time) ==>
        ship != null && fresh(ship) && playerShipSpawnTime == 0.0 &&
        volley == (if input.firing && clock.time >= 0.0 then Volley(old(game.currentPowerUp)) else [])
      ensures !ShipDue(old(playerShipSpawnTime), clock.time) ==> playerShipSpawnTime == old(playerShipSpawnTime)
      ensures !ShipDue(old(playerShipSpawnTime), clock.time) && old(ship) == null ==> ship == null && volley == []
      ensures !ShipDue(old(playerShipSpawnTime), clock.time) && old(ship) != null && !old(ship.body.destroyed) ==>
        ship == old(ship) &&
        volley == (if input.firing && clock.time >= old(ship.nextWeaponFire) then Volley(old(game.currentPowerUp)) else [])
      ensures old(LosesShip(clock)) ==>
        ship == null && volley == [] &&
        (forall i :: 0 <= i < game.ui.shipIcons.Length ==> game.ui.shipIcons[i] == (i < Min(game.ships, SHIP_ICON_COUNT))) &&
        ShowsLossPrompt(game)
      ensures old(UfoArrives(game)) ==> ufo != null && fresh(ufo) && !ufo.destroyed && ufo.position == ufoSpawnAt
      ensures !old(UfoArrives(game)) ==> ufo == old(ufo)
    {
      Arrive(game, clock, ufoSpawnAt);
      volley := UpdateShip(game, clock, input, direction, length);
    }

    /** The entity steps of a frame up to the completion test: arrivals, the ship, then removals. */
    method SteerAndPay(game: Game, clock: Clock, input: ShipInput, direction: real -> Vec2,
                       length: Vec2 -> real, ufoSpawnAt: Vec2) returns (volley: seq<Shot>)
      requires Valid() && game.Valid()
      requires forall w :: 0.0 <= length(w) && length(w) * length(w) == w.Norm2()
      modifies this`ship, this`playerShipSpawnTime, this`ufo, this`powerUp, ShipParts(), ufo, powerUp,
        game`score, game`scoreSinceLastUFO, game`scoreSinceLastPowerUp, game`currentPowerUp,
        game`isRespawning, game`ships, game.ui`previousScore, game.ui`targetScore,
        game.ui`scoreCounterEnds, game.ui`levelLabelVisible, game.ui`helpLabelVisible, game.ui`levelText,
        game.ui`helpText, game.ui`levelFadeEnds, game.ui.shipIcons,
        base`shakeIntensity, base`shakeDuration, base`shakeElapsed
      ensures Valid() && game.Valid()
      ensures ship != null ==> !ship.body.destroyed
      ensures ufo != null ==> !ufo.destroyed
      ensures powerUp != null ==> !powerUp.destroyed
      ensures game.ui.scoreCounterEnds == old(game.ui.scoreCounterEnds) ||
        game.ui.scoreCounterEnds == clock.realTime + SCORE_COUNTER_DURATION
      // The counters, as the sub-steps leave them (see FrameTallySteps).
      ensures TallyOf(game) ==
        FrameTally(old(TallyOf(game)), old(UfoArrives(game)), old(LosesShip(clock)), old(UfoPaysOut()), old(CrateCollected()))
      // The camera shakes from an explosion when the ship is lost, and is untouched otherwise.
      ensures base.ShakeOf() == (if old(LosesShip(clock)) then EXPLOSION_SHAKE else old(base.ShakeOf()))
      // The delayed arrival of the ship, which then takes the frame's input.
      ensures ShipDue(old(playerShipSpawnTime), clock.time) ==>
        ship != null && fresh(ship) && playerShipSpawnTime == 0.0 &&
        volley == (if input.firing && clock.time >= 0.0 then Volley(old(game.currentPowerUp)) else [])
      ensures !ShipDue(old(playerShipSpawnTime), clock.time) ==> playerShipSpawnTime == old(playerShipSpawnTime)
      // A ship already present: none, a live ship taking the frame's input, or a loss shown on the HUD.
      ensures !ShipDue(old(playerShipSpawnTime), clock.time) && old(ship) == null ==> ship == null && volley == []
      ensures !ShipDue(old(playerShipSpawnTime), clock.time) && old(ship) != null && !old(ship.body.destroyed) ==>
        ship == old(ship) &&
        volley == (if input.firing && clock.time >= old(ship.nextWeaponFire) then Volley(old(game.currentPowerUp)) else [])
      ensures old(LosesShip(clock)) ==>
        ship == null && volley == [] &&
        (forall i :: 0 <= i < game.ui.shipIcons.Length ==> game.ui.shipIcons[i] == (i < Min(game.ships, SHIP_ICON_COUNT)))
      ensures old(LosesShip(clock)) ==> ShowsLossPrompt(game)
      // The arrival of a due UFO, the removal of a destroyed one, and of a collected crate.
      ensures old(UfoArrives(game)) ==> ufo != null && fresh(ufo) && ufo.position == ufoSpawnAt
      ensures !old(UfoArrives(game)) ==> ufo == (if old(UfoPaysOut()) then null else old(ufo))
      ensures powerUp == (if old(CrateCollected()) then null else old(powerUp))
    {
      volley := ArriveAndSteer(game, clock, input, direction, length, ufoSpawnAt);
      Payout(game, clock.realTime);
    }

    /**
     * The entity steps of a frame: arrivals, the ship, then removals. Afterwards no reference
     * the scene holds points at a destroyed entity, and a destroyed UFO has paid exactly once.
     */
    method UpdateEntities(game: Game, clock: Clock, input: ShipInput, direction: real -> Vec2,
                          length: Vec2 -> real, ufoSpawnAt: Vec2, allAsteroidsDestroyed: bool)
      returns (volley: seq<Shot>)
      requires Valid() && game.Valid()
      requires forall w :: 0.0 <= length(w) && length(w) * length(w) == w.Norm2()
      modifies this`ship, this`playerShipSpawnTime, this`ufo, this`powerUp, ShipParts(), ufo, powerUp,
        game`score, game`scoreSinceLastUFO, game`scoreSinceLastPowerUp, game`currentPowerUp,
        game`isLevelCompleted, game`isRespawning, game`ships, game.ui`previousScore, game.ui`targetScore,
        game.ui`scoreCounterEnds, game.ui`levelLabelVisible, game.ui`helpLabelVisible, game.ui`levelText,
        game.ui`helpText, game.ui`levelFadeEnds, game.ui.shipIcons,
        base`shakeIntensity, base`shakeDuration, base`shakeElapsed
      ensures Valid() && game.Valid()
      ensures ship != null ==> !ship.body.destroyed
      ensures ufo != null ==> !ufo.destroyed
      ensures powerUp != null ==> !powerUp.destroyed
      ensures game.score == old(game.score) + (if old(ufo) != null && old(ufo.destroyed) then UFO_REWARD else 0)
      ensures allAsteroidsDestroyed && ufo == null ==> game.isLevelCompleted
      ensures game.isLevelCompleted <==> old(game.isLevelCompleted) || (allAsteroidsDestroyed && ufo == null)
      ensures !old(game.isLevelCompleted) && game.isLevelCompleted ==>
        game.ui.levelText == Message(LEVEL_COMPLETED_CAPTION) && game.ui.levelLabelVisible
      ensures game.ui.scoreCounterEnds == old(game.ui.scoreCounterEnds) ||
        game.ui.scoreCounterEnds == clock.realTime + SCORE_COUNTER_DURATION
      // The counters, as the sub-steps leave them (see FrameTallySteps).
      ensures game.nextScene == old(game.nextScene) && game.isPaused == old(game.isPaused) && game.scene == old(game.scene)
      ensures TallyOf(game) ==
        FrameTally(old(TallyOf(game)), old(UfoArrives(game)), old(LosesShip(clock)), old(UfoPaysOut()), old(CrateCollected()))
      // The camera shakes from an explosion when the ship is lost, and is untouched otherwise.
      ensures base.ShakeOf() == (if old(LosesShip(clock)) then EXPLOSION_SHAKE else old(base.ShakeOf()))
      // The delayed arrival of the ship, which then takes the frame's input.
      ensures ShipDue(old(playerShipSpawnTime), clock.time) ==>
        ship != null && fresh(ship) && playerShipSpawnTime == 0.0 &&
        volley == (if input.firing && clock.time >= 0.0 then Volley(old(game.currentPowerUp)) else [])
      ensures !ShipDue(old(playerShipSpawnTime), clock.time) ==> playerShipSpawnTime == old(playerShipSpawnTime)
      // A ship already present: none, a live ship taking the frame's input, or a loss shown on the HUD.
      ensures !ShipDue(old(playerShipSpawnTime), clock.time) && old(ship) == null ==> ship == null && volley == []
      ensures !ShipDue(old(playerShipSpawnTime), clock.time) && old(ship) != null && !old(ship.body.destroyed) ==>
        ship == old(ship) &&
        volley == (if input.firing && clock.time >= old(ship.nextWeaponFire) then Volley(old(game.currentPowerUp)) else [])
      ensures old(LosesShip(clock)) ==>
        ship == null && volley == [] &&
        (forall i :: 0 <= i < game.ui.shipIcons.Length ==> game.ui.shipIcons[i] == (i < Min(game.ships, SHIP_ICON_COUNT)))
      ensures old(LosesShip(clock)) && game.isLevelCompleted == old(game.isLevelCompleted) ==> ShowsLossPrompt(game)
      // The arrival of a due UFO, the removal of a destroyed one, and of a collected crate.
      ensures old(UfoArrives(game)) ==> ufo != null && fresh(ufo) && ufo.position == ufoSpawnAt
      ensures !old(UfoArrives(game)) ==> ufo == (if old(UfoPaysOut()) then null else old(ufo))
      ensures powerUp == (if old(CrateCollected()) then null else old(powerUp))
    {
      volley := SteerAndPay(game, clock, input, direction, length, ufoSpawnAt);
      CompleteLevelIfCleared(game, allAsteroidsDestroyed);
    }

    /**
     * GameScene::Update: the entity steps, then the shared scene timers; `changeScene`
     * reports a completed fade-out. `ufoSpawnAt` is the random spawn position and
     * `allAsteroidsDestroyed` the asteroid collection's answer after its own update.
     */
    method Update(game: Game, clock: Clock, input: ShipInput, direction: real -> Vec2, length: Vec2 -> real,
                  ufoSpawnAt: Vec2, allAsteroidsDestroyed: bool) returns (volley: seq<Shot>, changeScene: bool)
      requires Valid() && game.Valid()
      requires forall w :: 0.0 <= length(w) && length(w) * length(w) == w.Norm2()
      modifies this`ship, this`playerShipSpawnTime, this`ufo, this`powerUp, ShipParts(), ufo, powerUp,
        game`score, game`scoreSinceLastUFO, game`scoreSinceLastPowerUp, game`currentPowerUp,
        game`isLevelCompleted, game`isRespawning, game`ships, game.ui`previousScore, game.ui`targetScore,
        game.ui`scoreCounterEnds, game.ui`levelLabelVisible, game.ui`helpLabelVisible, game.ui`levelText,
        game.ui`helpText, game.ui`levelFadeEnds, game.ui.shipIcons,
        base`shakeIntensity, base`shakeDuration, base`shakeElapsed, base`lightFlashes, base`fadeFactor,
        base`fadeEffectEnds
      ensures Valid() && game.Valid()
      ensures ship != null ==> !ship.body.destroyed
      ensures ufo != null ==> !ufo.destroyed
      ensures powerUp != null ==> !powerUp.destroyed
      ensures game.score == old(game.score) + (if old(ufo) != null && old(ufo.destroyed) then UFO_REWARD else 0)
      ensures allAsteroidsDestroyed && ufo == null ==> game.isLevelCompleted
      ensures game.isLevelCompleted <==> old(game.isLevelCompleted) || (allAsteroidsDestroyed && ufo == null)
      ensures !old(game.isLevelCompleted) && game.isLevelCompleted ==>
        game.ui.levelText == Message(LEVEL_COMPLETED_CAPTION) && game.ui.levelLabelVisible
      ensures changeScene <==> old(base.IsFading()) && !base.isFadingIn && clock.realTime >= old(base.fadeEffectEnds)
      ensures game.ui.scoreCounterEnds == old(game.ui.scoreCounterEnds) ||
        game.ui.scoreCounterEnds == clock.realTime + SCORE_COUNTER_DURATION
      // The counters, as the sub-steps leave them (see FrameTallySteps).
      ensures TallyOf(game) ==
        FrameTally(old(TallyOf(game)), old(UfoArrives(game)), old(LosesShip(clock)), old(UfoPaysOut()), old(CrateCollected()))
      ensures game.isRespawning == (old(game.isRespawning) || old(LosesShip(clock)))
      ensures game.nextScene == old(game.nextScene) && game.isPaused == old(game.isPaused) && game.scene == old(game.scene)
      ensures base.isFadingIn == old(base.isFadingIn)
      // The scene step after the entity steps: the shake (restarted by a lost ship), the flashes and the fade.
      ensures base.ShakeOf() ==
        ShakeStep(if old(LosesShip(clock)) then EXPLOSION_SHAKE else old(base.ShakeOf()), base.hasCamera, clock.realDeltaTime)
      ensures base.lightFlashes == Survivors(old(base.lightFlashes), clock.deltaTime)
      ensures !old(base.IsFading()) ==> base.fadeEffectEnds == old(base.fadeEffectEnds) && base.fadeFactor == old(base.fadeFactor)
      ensures old(base.IsFading()) && clock.realTime >= old(base.fadeEffectEnds) ==>
        !base.IsFading() && base.fadeFactor == (if base.isFadingIn then 0.0 else 1.0)
      ensures old(base.IsFading()) && clock.realTime < old(base.fadeEffectEnds) ==>
        base.fadeEffectEnds == old(base.fadeEffectEnds) &&
        base.fadeFactor == FadeFactorAt(base.isFadingIn, FadeProgress(base.fadeEffectEnds, clock.realTime))
      // The delayed arrival of the ship, which then takes the frame's input.
      ensures ShipDue(old(playerShipSpawnTime), clock.time) ==>
        ship != null && fresh(ship) && playerShipSpawnTime == 0.0 &&
        volley == (if input.firing && clock.time >= 0.0 then Volley(old(game.currentPowerUp)) else [])
      ensures !ShipDue(old(playerShipSpawnTime), clock.time) ==> playerShipSpawnTime == old(playerShipSpawnTime)
      // A ship already present: none, a live ship taking the frame's input, or a loss shown on the HUD.
      ensures !ShipDue(old(playerShipSpawnTime), clock.time) && old(ship) == null ==> ship == null && volley == []
      ensures !ShipDue(old(playerShipSpawnTime), clock.time) && old(ship) != null && !old(ship.body.destroyed) ==>
        ship == old(ship) &&
        volley == (if input.firing && clock.time >= old(ship.nextWeaponFire) then Volley(old(game.currentPowerUp)) else [])
      ensures old(LosesShip(clock)) ==>
        ship == null && volley == [] &&
        (forall i :: 0 <= i < game.ui.shipIcons.Length ==> game.ui.shipIcons[i] == (i < Min(game.ships, SHIP_ICON_COUNT)))
      ensures old(LosesShip(clock)) && game.isLevelCompleted == old(game.isLevelCompleted) ==> ShowsLossPrompt(game)
      // The arrival of a due UFO, the removal of a destroyed one, and of a collected crate.
      ensures old(UfoArrives(game)) ==> ufo != null && fresh(ufo) && ufo.position == ufoSpawnAt
      ensures !old(UfoArrives(game)) ==> ufo == (if old(UfoPaysOut()) then null else old(ufo))
      ensures powerUp == (if old(CrateCollected()) then null else old(powerUp))
    {
      volley := UpdateEntities(game, clock, input, direction, length, ufoSpawnAt, allAsteroidsDestroyed);
      changeScene := base.Update(clock);
    }

    /** A new ship in the middle of the field, unless one is already there. */
    method RespawnShip(game: Game)
      modifies this`ship, game.ui`levelLabelVisible, game.ui`helpLabelVisible
      requires Valid()
      ensures Valid()
      ensures old(ship) != null ==> ship == old(ship) && unchanged(game.ui)
      ensures old(ship) == null ==>
        ship != null && fresh(ship) && fresh(ship.body) && ship.body.spawned && !ship.body.destroyed &&
        !game.ui.levelLabelVisible && !game.ui.helpLabelVisible
    {
      if ship != null {
        return;
      }
      var s := new Ship();
      s.Spawn();
      ship := s;
      game.ui.HideInfoLabels();
    }

    /**
     * A destroyed rock or UFO leaves a power-up crate where it was, when none is present and
     * the player has earned the next tier; nothing else leaves one.
     */
    method OnEntityDestroyed(game: Game, entity: Entity)
      modifies this`powerUp
      requires Valid()
      ensures Valid()
      ensures ((entity.kind == AsteroidEntity || entity.kind == UfoEntity) && old(powerUp) == null &&
               game.HasPlayerEarnedPowerUp()) ==>
        powerUp != null && fresh(powerUp) && powerUp.spawned && powerUp.position == entity.position
      ensures !((entity.kind == AsteroidEntity || entity.kind == UfoEntity) && old(powerUp) == null &&
                game.HasPlayerEarnedPowerUp()) ==>
        powerUp == old(powerUp)
    {
      if entity.kind == AsteroidEntity || entity.kind == UfoEntity {
        if powerUp == null && game.HasPlayerEarnedPowerUp() {
          var p := new Entity(PowerUpEntity);
          p.Spawn();
          p.position := entity.position;
          powerUp := p;
        }
      }
    }
  }

  /** A fresh game scene becomes current; it is not set up yet. */
  method MakeGameSceneCurrent(game: Game, viewMin: Vec2, viewMax: Vec2) returns (next: GameScene)
    requires game.Valid() && game.nextScene == Some(GameScene)
    modifies game`isPaused, game`timeScale, game`scene, game`boundsMin, game`boundsMax,
      game`isLevelCompleted, game`nextScene, game.ui
    ensures fresh(next) && fresh(next.base) && next.Valid() && game.Valid() && game.scene == next.base
    ensures fresh(next.asteroids) && next.base.hasCamera && next.ship == null
    ensures game.nextScene == None && !game.isLevelCompleted
    ensures game.ui.scoreCounterEnds == old(game.ui.scoreCounterEnds)
    ensures game.ships == old(game.ships) && game.score == old(game.score) && game.isRespawning == old(game.isRespawning)
  {
    var scene := new Scene(GameScene);
    assert scene.kind == GameScene;
    game.ChangeScene(scene, viewMin, viewMax);
    next := new GameScene(scene);
  }

  /** A fresh game scene becomes current and is set up for the current sector. */
  method EnterGameScene(game: Game, clock: Clock, viewMin: Vec2, viewMax: Vec2) returns (next: GameScene)
    requires game.Valid() && game.nextScene == Some(GameScene)
    modifies game`isPaused, game`timeScale, game`scene, game`boundsMin, game`boundsMax,
      game`isLevelCompleted, game`nextScene, game.ui
    ensures fresh(next) && fresh(next.base) && next.Valid() && game.Valid() && game.scene == next.base
    ensures next.base.hasCamera && next.base.isFadingIn
    ensures next.ship == null && next.playerShipSpawnTime == clock.time + SHIP_SPAWN_DELAY
    ensures game.nextScene == None && !game.isLevelCompleted
    ensures game.ui.scoreCounterEnds == old(game.ui.scoreCounterEnds)
    ensures game.ships == old(game.ships) && game.score == old(game.score) && game.isRespawning == old(game.isRespawning)
  {
    next := MakeGameSceneCurrent(game, viewMin, viewMax);
    next.SetupLevel(game, clock);
  }

  /** A fresh menu scene becomes current. */
  method EnterMainMenu(game: Game, viewMin: Vec2, viewMax: Vec2)
    requires game.Valid() && game.nextScene == Some(MenuScene)
    modifies game`isPaused, game`timeScale, game`scene, game`boundsMin, game`boundsMax,
      game`isLevelCompleted, game`nextScene, game.ui
    ensures game.Valid() && game.scene != null && fresh(game.scene) && game.scene.kind == MenuScene
    ensures game.nextScene == None
    ensures game.ui.scoreCounterEnds == old(game.ui.scoreCounterEnds)
    ensures game.ships == old(game.ships) && game.score == old(game.score) && game.isRespawning == old(game.isRespawning)
  {
    var menu := new Scene(MenuScene);
    assert menu.kind == MenuScene;
    game.ChangeScene(menu, viewMin, viewMax);
  }

  /**
   * The hand-over after a finished fade-out: the queued scene is built and made current. The
   * result is the game scene now current, or null once the main menu has taken over. A
   * fade-out with no scene queued hands over nothing.
   */
  method HandOver(game: Game, gs: GameScene, clock: Clock, change: bool, viewMin: Vec2, viewMax: Vec2)
    returns (current: GameScene?)
    requires gs.Valid() && game.Valid() && game.scene == gs.base
    modifies game`isPaused, game`timeScale, game`scene, game`boundsMin, game`boundsMax,
      game`isLevelCompleted, game`nextScene, game.ui
    ensures game.Valid()
    ensures current != null ==> current.Valid() && game.scene == current.base
    ensures current == null ==> game.scene != null && game.scene.kind == MenuScene
    ensures current != gs ==> current == null || (fresh(current) && current.ship == null)
    ensures game.scene == old(game.scene) || fresh(game.scene)
    ensures !(change && old(game.nextScene).Some?) ==> current == gs && unchanged(game)
    ensures change && old(game.nextScene).Some? ==>
      game.nextScene == None && game.scene != null && fresh(game.scene) && game.scene.kind == old(game.nextScene).value
    ensures change && old(game.nextScene) == Some(GameScene) ==>
      current != null && fresh(current) && current.base.isFadingIn && current.ship == null &&
      current.playerShipSpawnTime == clock.time + SHIP_SPAWN_DELAY
    ensures change && old(game.nextScene) == Some(MenuScene) ==> current == null
    ensures game.ui.scoreCounterEnds == old(game.ui.scoreCounterEnds)
    ensures game.ships == old(game.ships) && game.score == old(game.score) && game.isRespawning == old(game.isRespawning)
  {
    current := gs;
    if change && game.nextScene.Some? {
      if game.nextScene.value == GameScene {
        current := EnterGameScene(game, clock, viewMin, viewMax);
      } else {
        EnterMainMenu(game, viewMin, viewMax);
        current := null;
      }
    }
  }

  /**
   * The game's own step after the scene's, and the respawn it asks for, which always finds a
   * game scene to respawn in.
   */
  method Respond(game: Game, current: GameScene?, confirm: bool, spawnAreaClear: bool, realNow: real)
    requires game.Valid() && game.scene != null
    requires current != null ==> current.Valid() && game.scene == current.base
    requires current != null && current.ship != null ==> !current.ship.body.destroyed
    requires current == null ==> game.scene.kind == MenuScene
    requires game.ui.scoreCounterEnds - SCORE_COUNTER_DURATION <= realNow
    modifies game`isLevelCompleted, game`currentLevel, game`isRespawning, game`nextScene, game.ui,
      game.scene`fadeFactor, game.scene`isFadingIn, game.scene`fadeEffectEnds, if current == null then {} else {current}
    ensures game.Valid() && game.scene == old(game.scene)
    ensures current != null ==> current.Valid()
    ensures current != null && current.ship != null ==> !current.ship.body.destroyed
    ensures current != null && game.isRespawning != old(game.isRespawning) && game.ships > 0 ==>
      current.ship != null && !current.ship.body.destroyed
    ensures game.ships == old(game.ships) && game.score == old(game.score)
    // The game step's outcomes, as Progression.Game.Update states them.
    ensures old(game.IsLoadingLevel()) ==>
      game.nextScene == old(game.nextScene) && game.isLevelCompleted == old(game.isLevelCompleted) &&
      game.currentLevel == old(game.currentLevel) && game.isRespawning == old(game.isRespawning)
    ensures !old(game.IsLoadingLevel()) ==>
      game.nextScene == (if old(game.AnswersRespawnPrompt(confirm)) && spawnAreaClear && game.ships == 0 then Some(MenuScene)
                         else if old(game.isLevelCompleted) && confirm then Some(GameScene)
                         else None)
    ensures !old(game.IsLoadingLevel()) && old(game.isLevelCompleted) && confirm ==>
      !game.isLevelCompleted && game.currentLevel == old(game.currentLevel) + 1
    ensures !(!old(game.IsLoadingLevel()) && old(game.isLevelCompleted) && confirm) ==>
      game.isLevelCompleted == old(game.isLevelCompleted) && game.currentLevel == old(game.currentLevel)
    ensures !old(game.IsLoadingLevel()) && old(game.AnswersRespawnPrompt(confirm)) ==> (game.isRespawning <==> !spawnAreaClear)
    ensures !old(game.AnswersRespawnPrompt(confirm)) ==> game.isRespawning == old(game.isRespawning)
    // The respawn: an answered prompt with a clear area and a ship left puts a live ship in the scene.
    ensures current != null && !old(game.IsLoadingLevel()) && old(game.AnswersRespawnPrompt(confirm)) && spawnAreaClear &&
            game.ships > 0 ==>
      current.ship != null && !current.ship.body.destroyed
  {
    var respawn := game.Update(confirm, spawnAreaClear, realNow);
    if respawn {
      current.RespawnShip(game);
    }
  }

  /**
   * The rest of a frame after the scene's update: the hand-over when the scene reported a
   * finished fade-out, then the game's own step and the respawn it asks for.
   */
  method Conclude(game: Game, gs: GameScene, clock: Clock, change: bool, confirm: bool, spawnAreaClear: bool,
                  viewMin: Vec2, viewMax: Vec2) returns (current: GameScene?)
    requires gs.Valid() && game.Valid() && game.scene == gs.base
    requires gs.ship != null ==> !gs.ship.body.destroyed
    requires game.ui.scoreCounterEnds - SCORE_COUNTER_DURATION <= clock.realTime
    modifies game, game.ui, gs, gs.base
    ensures game.Valid()
    ensures current != null ==> current.Valid() && game.scene == current.base
    ensures current == null ==> game.scene != null && game.scene.kind == MenuScene
    ensures current != null && current.ship != null ==> !current.ship.body.destroyed
    ensures change && old(game.nextScene) == Some(GameScene) ==> current != null && fresh(current)
    ensures change && old(game.nextScene) == Some(MenuScene) ==> current == null
    ensures !(change && old(game.nextScene).Some?) ==> current == gs
    ensures !old(game.IsLoadingLevel()) && old(game.AnswersRespawnPrompt(confirm)) && spawnAreaClear && game.ships > 0 ==>
      current == gs && gs.ship != null && !gs.ship.body.destroyed
    ensures !old(game.IsLoadingLevel()) && old(game.AnswersRespawnPrompt(confirm)) && spawnAreaClear && game.ships == 0 ==>
      game.nextScene == Some(MenuScene)
  {
    current := HandOver(game, gs, clock, change, viewMin, viewMax);
    Respond(game, current, confirm, spawnAreaClear, clock.realTime);
  }

  /**
   * One frame of the game while a game scene is current (Game::Update): the scene's update;
   * the hand-over when it reports a finished fade-out; then the game's own step, and the
   * respawn it asks for, which always finds a game scene to respawn in. The result is the game
   * scene now current, or null once the main menu has taken over, and the volley the ship fired.
   * `viewMin` and `viewMax` are the corners of a new camera's view.
   */
  method Frame(game: Game, gs: GameScene, clock: Clock, input: ShipInput, confirm: bool,
               direction: real -> Vec2, length: Vec2 -> real, ufoSpawnAt: Vec2,
               allAsteroidsDestroyed: bool, spawnAreaClear: bool, viewMin: Vec2, viewMax: Vec2)
    returns (current: GameScene?, volley: seq<Shot>)
    requires gs.Valid() && game.Valid() && game.scene == gs.base
    requires forall w :: 0.0 <= length(w) && length(w) * length(w) == w.Norm2()
    requires game.ui.scoreCounterEnds - SCORE_COUNTER_DURATION <= clock.realTime
    modifies gs, gs.base, game, game.ui, game.ui.shipIcons, gs.ShipParts(), gs.ufo, gs.powerUp
    ensures game.Valid()
    ensures current != null ==> current.Valid() && game.scene == current.base
    ensures current == null ==> game.scene != null && game.scene.kind == MenuScene
    ensures current != null && current.ship != null ==> !current.ship.body.destroyed
    // The hand-over, when the scene's fade-out ends with a scene queued.
    ensures old(gs.base.IsFading()) && !old(gs.base.isFadingIn) && clock.realTime >= old(gs.base.fadeEffectEnds) &&
            old(game.nextScene) == Some(GameScene) ==>
      current != null && fresh(current)
    ensures old(gs.base.IsFading()) && !old(gs.base.isFadingIn) && clock.realTime >= old(gs.base.fadeEffectEnds) &&
            old(game.nextScene) == Some(MenuScene) ==>
      current == null
    ensures !(old(gs.base.IsFading()) && !old(gs.base.isFadingIn) && clock.realTime >= old(gs.base.fadeEffectEnds) &&
              old(game.nextScene).Some?) ==>
      current == gs
    // The respawn prompt answered in this frame, with a clear area: a ship, or the menu when none is left.
    ensures !old(game.IsLoadingLevel()) && old(game.AnswersRespawnPrompt(confirm)) && spawnAreaClear && game.ships > 0 ==>
      current == gs && gs.ship != null && !gs.ship.body.destroyed
    ensures !old(game.IsLoadingLevel()) && old(game.AnswersRespawnPrompt(confirm)) && spawnAreaClear && game.ships == 0 ==>
      game.nextScene == Some(MenuScene)
  {
    var change;
    volley, change := gs.Update(game, clock, input, direction, length, ufoSpawnAt, allAsteroidsDestroyed);
    current := Conclude(game, gs, clock, change, confirm, spawnAreaClear, viewMin, viewMax);
  }
}

=== FILE: projectile.dfy ===
/**
 * Projectiles: who owns a shot, how fast and how long it flies, when it expires and
 * what it is destroyed by.
 */
module Projectiles {
  import opened Common
  import opened Entities

  const PLAYER_SPEED: real := 25.0
  const PLAYER_LIFETIME: real := 1.0
  const UFO_SPEED: real := 12.0
  const UFO_LIFETIME: real := 2.0
  /** The bounding radius every projectile is created with. */
  const PROJECTILE_RADIUS: real := 0.3

  /** A shot is the player's iff it has an owner and that owner is the ship. */
  predicate OwnedByPlayer(owner: Entity?)
  {
    owner != null && owner.kind == ShipEntity
  }

  /** The flight speed of a shot with the given owner, in units per second. */
  function SpeedOf(owner: Entity?): (speed: real)
    ensures OwnedByPlayer(owner) <==> speed == PLAYER_SPEED
    ensures !OwnedByPlayer(owner) <==> speed == UFO_SPEED
  {
    if OwnedByPlayer(owner) then PLAYER_SPEED else UFO_SPEED
  }

  /** How long after spawning a shot with the given owner expires, in seconds. */
  function LifetimeOf(owner: Entity?): (lifetime: real)
    ensures OwnedByPlayer(owner) <==> lifetime == PLAYER_LIFETIME
    ensures !OwnedByPlayer(owner) <==> lifetime == UFO_LIFETIME
  {
    if OwnedByPlayer(owner) then PLAYER_LIFETIME else UFO_LIFETIME
  }

  /** A shot with no owner is never the player's: it flies and lives like a UFO shot. */
  lemma UnownedShotIsNotPlayers()
    ensures !OwnedByPlayer(null)
    ensures SpeedOf(null) == UFO_SPEED && LifetimeOf(null) == UFO_LIFETIME
  {
  }

  /** Player shots are faster than any other shot but expire sooner. */
  lemma PlayerShotsFasterButShorterLived(player: Entity?, other: Entity?)
    requires OwnedByPlayer(player) && !OwnedByPlayer(other)
    ensures SpeedOf(player) > SpeedOf(other)
    ensures LifetimeOf(player) < LifetimeOf(other)
  {
  }

  /** The contact rule of a projectile: anything that is neither its owner nor a projectile. */
  predicate HitEndsProjectile(owner: Entity?, other: Entity)
  {
    other != owner && other.kind != ProjectileEntity
  }

  /**
   * The projectile collection of a scene. projectilehandler.cpp is not part of this model:
   * only the live set and the reference removal that a projectile's Destroy performs are given.
   */
  class ProjectileHandler {
    var live: set<Projectile>

    constructor ()
      ensures live == {}
    {
      live := {};
    }

    method RemoveReference(p: Projectile)
      modifies this
      ensures live == old(live) - {p}
    {
      live := live - {p};
    }
  }

  class Projectile {
    const body: Entity
    /** m_expiresTime: the game time at which the shot self-destructs. */
    var expiresTime: real

    /** Projectile() followed by the handler's SetOwner. */
    constructor (owner: Entity?)
      ensures fresh(body) && body.kind == ProjectileEntity && body.owner == owner
      ensures !body.collidable && body.boundingRadius == PROJECTILE_RADIUS
      ensures !body.spawned && !body.destroyed && expiresTime == 0.0
    {
      var b := new Entity(ProjectileEntity);
      b.collidable := false;
      b.boundingRadius := PROJECTILE_RADIUS;
      b.owner := owner;
      body := b;
      expiresTime := 0.0;
    }

    /** Only an owner that is the ship makes a shot the player's; an unowned shot never is. */
    predicate IsOwnedByPlayer()
      reads body
      ensures body.owner == null ==> !IsOwnedByPlayer()
      ensures body.owner != null && body.owner.kind == ShipEntity ==> IsOwnedByPlayer()
      ensures body.owner != null && body.owner.kind != ShipEntity ==> !IsOwnedByPlayer()
    {
      OwnedByPlayer(body.owner)
    }

    function GetSpeed(): (speed: real)
      reads body
      ensures IsOwnedByPlayer() ==> speed == PLAYER_SPEED
      ensures !IsOwnedByPlayer() ==> speed == UFO_SPEED
    {
      SpeedOf(body.owner)
    }

    /**
     * Spawning is guarded: a spawned shot is left alone. The expiry is set only once the
     * sprite resource has been found; a missing sprite returns early and leaves it at its
     * old value.
     */
    method Spawn(now: real, spriteFound: bool)
      modifies body`spawned, this`expiresTime
      ensures body.spawned
      ensures old(body.spawned) ==> expiresTime == old(expiresTime)
      ensures !old(body.spawned) && spriteFound ==> expiresTime == now + LifetimeOf(body.owner)
      ensures !spriteFound ==> expiresTime == old(expiresTime)
    {
      if body.spawned {
        return;
      }
      body.Spawn();
      if !spriteFound {
        return;
      }
      expiresTime := now + (if IsOwnedByPlayer() then PLAYER_LIFETIME else UFO_LIFETIME);
    }

    /** Destruction is guarded too: it detaches the shot from the handler, then ends it. */
    method Destroy(handler: ProjectileHandler)
      modifies body`spawned, body`destroyed, handler
      ensures !old(body.spawned) ==> !body.spawned && body.destroyed == old(body.destroyed)
      ensures !old(body.spawned) ==> handler.live == old(handler.live)
      ensures old(body.spawned) ==> !body.spawned && body.destroyed
      ensures old(body.spawned) ==> handler.live == old(handler.live) - {this}
    {
      if !body.spawned {
        return;
      }
      handler.RemoveReference(this);
      body.Destroy();
    }

    /**
     * One frame of flight: the shot moves by velocity times the frame's delta time, and is
     * destroyed once killed or once the game time reaches its expiry.
     */
    method Update(clock: Clock, handler: ProjectileHandler)
      modifies body`position, body`spawned, body`destroyed, handler
      ensures !old(body.spawned) ==> body.position == old(body.position)
      ensures !old(body.spawned) ==>
        body.spawned == old(body.spawned) && body.destroyed == old(body.destroyed) && handler.live == old(handler.live)
      ensures old(body.spawned) ==>
        body.position == old(body.position).Plus(body.velocity.Scale(clock.deltaTime))
      ensures old(body.spawned) && (old(body.destroyed) || clock.time >= expiresTime) ==>
        !body.spawned && body.destroyed && handler.live == old(handler.live) - {this}
      ensures old(body.spawned) && !old(body.destroyed) && clock.time < expiresTime ==>
        body.spawned && !body.destroyed && handler.live == old(handler.live)
    {
      if !body.spawned {
        return;
      }
      body.position := body.position.Plus(body.velocity.Scale(clock.deltaTime));
      if body.destroyed || clock.time >= expiresTime {
        Destroy(handler);
      }
    }

    /** A contact kills the shot iff the other party is neither its owner nor a projectile. */
    method OnCollideWith(other: Entity)
      modifies body`destroyed
      ensures body.destroyed == (old(body.destroyed) || HitEndsProjectile(body.owner, other))
      ensures other.kind == ProjectileEntity ==> body.destroyed == old(body.destroyed)
    {
      if other != body.owner && other.kind != ProjectileEntity {
        body.Kill();
      }
    }
  }
}

=== FILE: scene.dfy ===
/**
 * The timers every scene runs: the camera fade that gates scene swaps, the camera shake,
 * the level background slot and the short-lived light flashes. Time values are `real`
 * timestamps supplied by the caller's clock; all drawing is left to the engine.
 */
module Scenes {
  import opened Common

  /** How long one camera fade lasts, in real seconds. */
  const FADE_DURATION: real := 0.5
  /** The number of level backgrounds in the background table. */
  const BACKGROUND_COUNT: nat := 6
  /** Extra room added around the camera's view when computing the playing field. */
  const VIEW_PADDING: real := 2.0

  /** The camera shake's registers: its intensity, its duration (0 when idle) and how long it has run. */
  datatype Shake = Shake(intensity: real, duration: real, elapsed: real)

  /**
   * One shake step of Scene::Update on the real time step: a running shake with a camera runs
   * on by `realDeltaTime`, and stops (duration 0) when it had already run its full duration.
   */
  function ShakeStep(sh: Shake, hasCamera: bool, realDeltaTime: real): Shake
  {
    if sh.duration == 0.0 || !hasCamera then sh
    else sh.(duration := if sh.elapsed < sh.duration then sh.duration else 0.0, elapsed := sh.elapsed + realDeltaTime)
  }

  /** `n` frames of shake steps of equal length. */
  function ShakeSteps(sh: Shake, hasCamera: bool, realDeltaTime: real, n: nat): Shake
    decreases n
  {
    if n == 0 then sh else ShakeSteps(ShakeStep(sh, hasCamera, realDeltaTime), hasCamera, realDeltaTime, n - 1)
  }

  /** An idle shake stays idle and unchanged. */
  lemma {:induction false} IdleShakeStays(sh: Shake, hasCamera: bool, realDeltaTime: real, n: nat)
    requires sh.duration == 0.0
    ensures ShakeSteps(sh, hasCamera, realDeltaTime, n) == sh
  {
    if n > 0 {
      IdleShakeStays(sh, hasCamera, realDeltaTime, n - 1);
    }
  }

  /**
   * With a camera and frames of positive length a shake always ends: after `n` frames it is
   * idle once the first `n - 1` frames cover what remained of it, and its intensity is kept.
   */
  lemma {:induction false} ShakeRunsOut(sh: Shake, realDeltaTime: real, n: nat)
    requires realDeltaTime > 0.0 && n >= 1
    requires sh.elapsed + (n - 1) as real * realDeltaTime >= sh.duration
    ensures ShakeSteps(sh, true, realDeltaTime, n).duration == 0.0
    ensures ShakeSteps(sh, true, realDeltaTime, n).intensity == sh.intensity
    decreases n
  {
    var next := ShakeStep(sh, true, realDeltaTime);
    if sh.duration == 0.0 {
      IdleShakeStays(sh, true, realDeltaTime, n);
    } else if sh.elapsed >= sh.duration {
      assert next == sh.(duration := 0.0, elapsed := sh.elapsed + realDeltaTime);
      IdleShakeStays(next, true, realDeltaTime, n - 1);
    } else {
      assert n >= 2;
      assert next.elapsed + (n - 2) as real * realDeltaTime == sh.elapsed + (n - 1) as real * realDeltaTime;
      ShakeRunsOut(next, realDeltaTime, n - 1);
    }
  }

  /** A fading point light: its peak intensity, its lifetime and how long it has been alive. */
  datatype LightFlash = LightFlash(intensity: real, duration: real, elapsed: real)

  /** The background slot stored for a requested index: indices past the table wrap around. */
  function BackgroundSlot(index: nat): (slot: nat)
    ensures slot < BACKGROUND_COUNT
    ensures slot % BACKGROUND_COUNT == index % BACKGROUND_COUNT
    ensures index < BACKGROUND_COUNT ==> slot == index
  {
    if index >= BACKGROUND_COUNT then index % BACKGROUND_COUNT else index
  }

  /** Normalised progress `t` of a fade that ends at `ends`, seen at real time `now`. */
  function FadeProgress(ends: real, now: real): real
  {
    1.0 - (ends - now) / FADE_DURATION
  }

  /** The fade factor for progress `t`: `t` while fading in, `1 - t` while fading out. */
  function FadeFactorAt(fadingIn: bool, t: real): real
  {
    if fadingIn then t else 1.0 - t
  }

  /**
   * While a fade is in progress (at most FADE_DURATION before its end) its factor stays in
   * [0, 1]; it rises with time while fading in and falls while fading out.
   */
  lemma FadeFactorInRangeAndMonotone(fadingIn: bool, ends: real, now1: real, now2: real)
    requires ends - FADE_DURATION <= now1 <= now2 < ends
    ensures 0.0 <= FadeFactorAt(fadingIn, FadeProgress(ends, now1)) <= 1.0
    ensures fadingIn ==> FadeFactorAt(fadingIn, FadeProgress(ends, now1)) <= FadeFactorAt(fadingIn, FadeProgress(ends, now2))
    ensures !fadingIn ==> FadeFactorAt(fadingIn, FadeProgress(ends, now1)) >= FadeFactorAt(fadingIn, FadeProgress(ends, now2))
  {
  }

  /** A flash after `dt` more seconds of life. */
  function Aged(f: LightFlash, dt: real): LightFlash
  {
    f.(elapsed := f.elapsed + dt)
  }

  /**
   * `elapsed / duration >= 1` in floating point. For a zero duration the quotient is +inf
   * when elapsed is positive (expired) and NaN when it is zero (never expired).
   */
  predicate Expired(f: LightFlash)
    ensures f.duration > 0.0 && f.elapsed < f.duration ==> !Expired(f)
    ensures f.duration > 0.0 && f.elapsed >= f.duration ==> Expired(f)
    ensures f.duration == 0.0 ==> (Expired(f) <==> f.elapsed > 0.0)
  {
    if f.duration > 0.0 then f.elapsed >= f.duration
    else if f.duration < 0.0 then f.elapsed <= f.duration
    else f.elapsed > 0.0
  }

  /** For a nonzero duration, Expired is exactly the quotient test `elapsed / duration >= 1`. */
  lemma ExpiredIsRatioTest(f: LightFlash)
    requires f.duration != 0.0
    ensures Expired(f) <==> f.elapsed / f.duration >= 1.0
  {
    var q := f.elapsed / f.duration;
    assert f.elapsed == q * f.duration;
    assert f.elapsed - f.duration == (q - 1.0) * f.duration;
    if f.duration > 0.0 {
      assert q >= 1.0 ==> (q - 1.0) * f.duration >= 0.0;
      assert q < 1.0 ==> (1.0 - q) * f.duration > 0.0;
    } else {
      assert q >= 1.0 ==> (q - 1.0) * -f.duration >= 0.0;
      assert q < 1.0 ==> (1.0 - q) * -f.duration > 0.0;
    }
  }

  /** The flash list after one frame: every flash aged by `dt`, the expired ones removed. */
  function Survivors(flashes: seq<LightFlash>, dt: real): (survivors: seq<LightFlash>)
    ensures |survivors| <= |flashes|
    ensures forall g :: g in survivors ==> !Expired(g)
  {
    if flashes == [] then []
    else (if Expired(Aged(flashes[0], dt)) then [] else [Aged(flashes[0], dt)]) + Survivors(flashes[1..], dt)
  }

  /** Survivors works element by element, so it keeps the relative order of the list. */
  lemma {:induction false} SurvivorsOfConcat(a: seq<LightFlash>, b: seq<LightFlash>, dt: real)
    ensures Survivors(a + b, dt) == Survivors(a, dt) + Survivors(b, dt)
  {
    if a == [] {
      assert a + b == b;
    } else {
      assert (a + b)[0] == a[0];
      assert (a + b)[1..] == a[1..] + b;
      SurvivorsOfConcat(a[1..], b, dt);
    }
  }

  /**
   * Exactly the expired flashes go: a flash of the list survives (aged) iff its aged copy has
   * not expired, and every survivor is the aged copy of a flash of the list and has not expired.
   */
  lemma {:induction false} SurvivorsAreTheUnexpired(flashes: seq<LightFlash>, dt: real)
    ensures |Survivors(flashes, dt)| <= |flashes|
    ensures forall g :: g in Survivors(flashes, dt) ==> !Expired(g)
    ensures forall g :: g in Survivors(flashes, dt) ==> exists f :: f in flashes && g == Aged(f, dt)
    ensures forall f :: f in flashes && !Expired(Aged(f, dt)) ==> Aged(f, dt) in Survivors(flashes, dt)
  {
    if flashes != [] {
      SurvivorsAreTheUnexpired(flashes[1..], dt);
      forall f | f in flashes && !Expired(Aged(f, dt))
        ensures Aged(f, dt) in Survivors(flashes, dt)
      {
        if f != flashes[0] {
          assert f in flashes[1..];
        }
      }
      forall g | g in Survivors(flashes, dt)
        ensures exists f :: f in flashes && g == Aged(f, dt)
      {
        if g in Survivors(flashes[1..], dt) {
          var f :| f in flashes[1..] && g == Aged(f, dt);
          assert f in flashes;
        } else {
          assert g == Aged(flashes[0], dt);
        }
      }
    }
  }

  class Scene {
    const kind: SceneType
    /** Whether Create has made the camera (m_camera != nullptr). */
    var hasCamera: bool
    var backgroundIndex: nat
    /** m_fadeEffectEnds: real time at which the fade ends; 0 when no fade is running. */
    var fadeEffectEnds: real
    var isFadingIn: bool
    var fadeFactor: real
    /** m_shakeDuration: 0 when the camera is not shaking. */
    var shakeDuration: real
    var shakeIntensity: real
    var shakeElapsed: real
    var lightFlashes: seq<LightFlash>

    /** A fresh scene: no camera, not fading, not shaking, factor 0, background 0, no flashes. */
    constructor (kind: SceneType)
      ensures this.kind == kind && !hasCamera
      ensures !IsFading() && !IsShaking() && !isFadingIn
      ensures GetCameraFadeFactor() == 0.0 && backgroundIndex == 0
      ensures shakeIntensity == 0.0 && shakeElapsed == 0.0 && lightFlashes == []
    {
      this.kind := kind;
      hasCamera := false;
      backgroundIndex := 0;
      fadeEffectEnds, isFadingIn, fadeFactor := 0.0, false, 0.0;
      shakeDuration, shakeIntensity, shakeElapsed := 0.0, 0.0, 0.0;
      lightFlashes := [];
    }

    /** Scene::Create: makes the scene root, the entity handlers and the camera. */
    method Create()
      modifies this`hasCamera
      ensures hasCamera
    {
      hasCamera := true;
    }

    /** A fade is running iff its end time is set; 0 stands for no fade. */
    predicate IsFading()
      reads this
      ensures IsFading() <==> fadeEffectEnds != 0.0
    {
      fadeEffectEnds != 0.0
    }

    /** The camera shakes iff a shake duration is set; 0 stands for no shake. */
    predicate IsShaking()
      reads this
      ensures IsShaking() <==> shakeDuration != 0.0
    {
      shakeDuration != 0.0
    }

    /** The shake registers as one value. */
    function ShakeOf(): Shake
      reads this
    {
      Shake(shakeIntensity, shakeDuration, shakeElapsed)
    }

    /** The stored factor, unchanged. */
    function GetCameraFadeFactor(): (factor: real)
      reads this
      ensures factor == fadeFactor
    {
      fadeFactor
    }

    /** Stores the background slot; the lighting and background textures are the engine's. */
    method SetBackground(index: nat)
      modifies this`backgroundIndex
      ensures backgroundIndex == BackgroundSlot(index)
    {
      var slot := index;
      if slot >= BACKGROUND_COUNT {
        slot := slot % BACKGROUND_COUNT;
      }
      backgroundIndex := slot;
    }

    /**
     * The playing field: without a camera a fixed 100 by 100 square at the origin; with one,
     * the camera's view corners (projected by the engine) widened by VIEW_PADDING each way.
     */
    function CalculateBoundaries(viewMin: Vec2, viewMax: Vec2): (bounds: (Vec2, Vec2))
      reads this
      ensures !hasCamera ==> bounds == (Vec2(0.0, 0.0), Vec2(100.0, 100.0))
      ensures hasCamera ==> bounds.0.Plus(Vec2(VIEW_PADDING, VIEW_PADDING)) == viewMin
      ensures hasCamera ==> bounds.1 == viewMax.Plus(Vec2(VIEW_PADDING, VIEW_PADDING))
    {
      if !hasCamera then (Vec2(0.0, 0.0), Vec2(100.0, 100.0))
      else (Vec2(viewMin.x - VIEW_PADDING, viewMin.y - VIEW_PADDING),
            Vec2(viewMax.x + VIEW_PADDING, viewMax.y + VIEW_PADDING))
    }

    /** Starts a fade in the given direction; a running fade is overwritten, not queued. */
    method FadeCamera(fadeIn: bool, realNow: real)
      modifies this`fadeFactor, this`isFadingIn, this`fadeEffectEnds
      ensures fadeEffectEnds == realNow + FADE_DURATION && isFadingIn == fadeIn
      ensures fadeFactor == (if fadeIn then 0.0 else 1.0)
    {
      fadeFactor := if fadeIn then 0.0 else 1.0;
      isFadingIn := fadeIn;
      fadeEffectEnds := realNow + FADE_DURATION;
    }

    method ShakeCamera(intensity: real, duration: real)
      modifies this`shakeIntensity, this`shakeDuration, this`shakeElapsed
      ensures shakeIntensity == intensity && shakeDuration == duration && shakeElapsed == 0.0
    {
      shakeIntensity := intensity;
      shakeDuration := duration;
      shakeElapsed := 0.0;
    }

    /** Adds one flash, just lit, at the end of the list; the light itself is the engine's. */
    method SpawnLightFlash(intensity: real, duration: real)
      modifies this`lightFlashes
      ensures lightFlashes == old(lightFlashes) + [LightFlash(intensity, duration, 0.0)]
    {
      lightFlashes := lightFlashes + [LightFlash(intensity, duration, 0.0)];
    }

    /**
     * One step of a running fade. Once the end time is reached the fade stops, the factor
     * settles at its final value, and the caller is told to change scene iff this was a
     * fade-out. Before that the factor follows the progress of the fade.
     */
    method ProcessFade(realNow: real) returns (changeScene: bool)
      modifies this`fadeFactor, this`fadeEffectEnds
      ensures realNow >= old(fadeEffectEnds) ==> !IsFading() && changeScene == !isFadingIn
      ensures realNow >= old(fadeEffectEnds) ==> fadeFactor == (if isFadingIn then 0.0 else 1.0)
      ensures realNow < old(fadeEffectEnds) ==> !changeScene && fadeEffectEnds == old(fadeEffectEnds)
      ensures realNow < old(fadeEffectEnds) ==>
        fadeFactor == FadeFactorAt(isFadingIn, FadeProgress(fadeEffectEnds, realNow))
    {
      if realNow >= fadeEffectEnds {
        fadeFactor := if isFadingIn then 0.0 else 1.0;
        fadeEffectEnds := 0.0;
        changeScene := !isFadingIn;
        return;
      }
      var timeLeft := fadeEffectEnds - realNow;
      var t := 1.0 - timeLeft / FADE_DURATION;
      fadeFactor := if isFadingIn then t else 1.0 - t;
      changeScene := false;
    }

    /**
     * One step of the camera shake. Without a camera nothing happens; once the elapsed time
     * reaches the duration the shake ends. The camera offset itself is the engine's.
     */
    method ProcessShake(realDeltaTime: real)
      modifies this`shakeDuration, this`shakeElapsed
      ensures !hasCamera ==> shakeDuration == old(shakeDuration) && shakeElapsed == old(shakeElapsed)
      ensures hasCamera ==> shakeElapsed == old(shakeElapsed) + realDeltaTime
      ensures hasCamera && old(shakeElapsed) >= old(shakeDuration) ==> !IsShaking()
      ensures hasCamera && old(shakeElapsed) < old(shakeDuration) ==> shakeDuration == old(shakeDuration)
    {
      if !hasCamera {
        return;
      }
      if !(shakeElapsed < shakeDuration) {
        shakeDuration := 0.0;
      }
      shakeElapsed := shakeElapsed + realDeltaTime;
    }

    /**
     * Ages every flash by `dt` and removes the expired ones, walking the list from its end
     * and removing in place as the engine's array does.
     */
    method AgeLightFlashes(dt: real)
      modifies this`lightFlashes
      ensures lightFlashes == Survivors(old(lightFlashes), dt)
    {
      ghost var start := lightFlashes;
      var i := |lightFlashes|;
      while i > 0
        invariant 0 <= i <= |start|
        invariant lightFlashes == start[..i] + Survivors(start[i..], dt)
      {
        i := i - 1;
        assert start[i..][0] == start[i] && start[i..][1..] == start[i + 1..];
        assert lightFlashes[i] == start[i];
        var aged := Aged(lightFlashes[i], dt);
        if Expired(aged) {
          assert start[..i + 1][..i] == start[..i];
          lightFlashes := lightFlashes[..i] + lightFlashes[i + 1..];
        } else {
          assert start[..i + 1] == start[..i] + [start[i]];
          lightFlashes := lightFlashes[i := aged];
        }
      }
      assert start[0..] == start;
    }

    /**
     * Scene::Update: shake, then flashes (on the scaled clock), then the fade (on the real
     * clock) last, because a completed fade-out hands control to the next scene.
     */
    method Update(clock: Clock) returns (changeScene: bool)
      modifies this`shakeDuration, this`shakeElapsed, this`lightFlashes, this`fadeFactor, this`fadeEffectEnds
      ensures lightFlashes == Survivors(old(lightFlashes), clock.deltaTime)
      ensures !old(IsFading()) ==> !changeScene && fadeEffectEnds == old(fadeEffectEnds) && fadeFactor == old(fadeFactor)
      ensures changeScene <==> old(IsFading()) && !isFadingIn && clock.realTime >= old(fadeEffectEnds)
      ensures changeScene ==> !IsFading()
      ensures !old(IsShaking()) ==> shakeDuration == old(shakeDuration) && shakeElapsed == old(shakeElapsed)
      ensures !hasCamera ==> shakeDuration == old(shakeDuration) && shakeElapsed == old(shakeElapsed)
      ensures ShakeOf() == ShakeStep(old(ShakeOf()), hasCamera, clock.realDeltaTime)
      ensures old(IsShaking()) && hasCamera ==> shakeElapsed == old(shakeElapsed) + clock.realDeltaTime
      ensures old(IsShaking()) && hasCamera && old(shakeElapsed) >= old(shakeDuration) ==> !IsShaking()
      ensures old(IsShaking()) && hasCamera && old(shakeElapsed) < old(shakeDuration) ==> shakeDuration == old(shakeDuration)
      ensures old(IsFading()) && clock.realTime >= old(fadeEffectEnds) ==>
        !IsFading() && fadeFactor == (if isFadingIn then 0.0 else 1.0)
      ensures old(IsFading()) && clock.realTime < old(fadeEffectEnds) ==>
        fadeEffectEnds == old(fadeEffectEnds) && fadeFactor == FadeFactorAt(isFadingIn, FadeProgress(fadeEffectEnds, clock.realTime))
    {
      if IsShaking() {
        ProcessShake(clock.realDeltaTime);
      }
      AgeLightFlashes(clock.deltaTime);
      changeScene := false;
      if IsFading() {
        changeScene := ProcessFade(clock.realTime);
      }
    }
  }

  /**
   * The fade sequencer hands over exactly once: after a frame in which a fade-out completed
   * and asked for the scene change, the next frame of the same scene never asks again unless
   * a new fade has been started in between.
   */
  method FadeOutHandsOverOnce(s: Scene, first: Clock, second: Clock) returns (again: bool)
    modifies s
    ensures !again
  {
    var changed := s.Update(first);
    if changed {
      again := s.Update(second);
    } else {
      again := false;
    }
  }
}

=== FILE: ship.dfy ===
/**
 * The player's ship: steering, thrust with a speed limit, the per-tier weapon cooldown and
 * volley shapes, the one-hit kill rule, and the spawn/destroy guards.
 *
 * Trigonometry and square roots are the engine's (cosf, sinf, Vec2::Normalize): the ship's
 * input step receives them as functions. Shots are described in the ship's own frame (muzzle
 * offset before rotation by the heading, and an angle added to the heading direction); the
 * rotation into the world and the creation of the projectile objects belong to the unseen
 * projectile handler, so a volley is returned to the caller as a list of shot descriptions.
 */
module Ships {
  import opened Common
  import opened Entities
  import opened Projectiles

  /** Degrees per second at full steering. */
  const TURN_SPEED: real := 180.0
  /** Units per second squared at full thrust. */
  const ACCELERATION: real := 40.0
  /** Units per second. */
  const MAX_SPEED: real := 20.0
  const SHIP_MASS: real := 200.0
  /** Where shots leave the ship, in its own frame (ahead of its centre). */
  const MUZZLE: Vec2 := Vec2(2.5, 0.0)
  /** Sideways offset of each of the two parallel shots of the double weapon. */
  const DOUBLE_SPREAD: real := 0.5
  /** Width of the arc of the wide weapon, in degrees. */
  const ARC_WIDTH: real := 10.0

  /** WEAPON_FIRE_RATES: volleys per second, indexed by the power-up tier. */
  function FireRate(tier: PowerUpTier): (rate: real)
    ensures tier == NoPowerUp ==> rate == 6.0
    ensures tier == WeaponDouble ==> rate == 5.0
    ensures tier == WeaponWide ==> rate == 3.0
  {
    [6.0, 5.0, 3.0][tier.Index()]
  }

  /** The time between two volleys at the given tier. */
  function Cooldown(tier: PowerUpTier): real
  {
    1.0 / FireRate(tier)
  }

  /** One shot of a volley: its muzzle position before rotation and its angle off the heading. */
  datatype Shot = Shot(offset: Vec2, angleOffset: real)

  /** The i-th of the four shots of the wide weapon: `(-1/2 + i/3)` of the arc. */
  function WideShot(i: nat): Shot
  {
    Shot(MUZZLE, (-0.5 + (i as real) / 3.0) * ARC_WIDTH)
  }

  /** The i-th of the two shots of the double weapon: first to one side, then to the other. */
  function DoubleShot(i: nat): Shot
  {
    Shot(Vec2(MUZZLE.x, MUZZLE.y + (if i == 0 then -1.0 else 1.0) * DOUBLE_SPREAD), 0.0)
  }

  /** The shots one trigger pull fires at the given tier. */
  function Volley(tier: PowerUpTier): (v: seq<Shot>)
    ensures 1 <= |v| <= 4
    ensures |v| == 1 <==> tier == NoPowerUp
    ensures forall i :: 0 <= i < |v| ==> v[i].offset.x == MUZZLE.x
  {
    match tier
    case WeaponDouble => [DoubleShot(0), DoubleShot(1)]
    case WeaponWide => [WideShot(0), WideShot(1), WideShot(2), WideShot(3)]
    case _ => [Shot(MUZZLE, 0.0)]
  }

  /** Volley sizes: two shots at the double tier, four at the wide tier, one otherwise. */
  lemma VolleySize(tier: PowerUpTier)
    ensures tier == WeaponDouble ==> |Volley(tier)| == 2
    ensures tier == WeaponWide ==> |Volley(tier)| == 4
    ensures tier == NoPowerUp ==> |Volley(tier)| == 1
  {
  }

  /**
   * The two shots of the double weapon fly in one direction (the heading) and leave from points
   * that differ only sideways, half a unit either side of the muzzle.
   */
  lemma DoubleShotsAreParallel()
    ensures var v := Volley(WeaponDouble);
      && v[0].angleOffset == v[1].angleOffset == 0.0
      && v[0].offset.x == v[1].offset.x == MUZZLE.x
      && v[0].offset.y == MUZZLE.y - DOUBLE_SPREAD && v[1].offset.y == MUZZLE.y + DOUBLE_SPREAD
  {
  }

  /**
   * The four shots of the wide weapon share one origin, fan out in increasing angle, are
   * symmetric about the heading and span exactly the arc width.
   */
  lemma WideShotsFormSymmetricArc()
    ensures var v := Volley(WeaponWide);
      && (forall i :: 0 <= i < 4 ==> v[i].offset == MUZZLE)
      && (forall i :: 0 <= i < 3 ==> v[i].angleOffset < v[i + 1].angleOffset)
      && (forall i :: 0 <= i < 4 ==> v[i].angleOffset == -v[3 - i].angleOffset)
      && v[3].angleOffset - v[0].angleOffset == ARC_WIDTH
  {
  }

  /**
   * Volleys per second fall as the tier rises, so the cooldown never shrinks; projectiles per
   * second still rise (6, 10, 12) because each volley carries more shots.
   */
  lemma CooldownGrowsWithTier(lower: PowerUpTier, higher: PowerUpTier)
    requires lower.Index() <= higher.Index()
    ensures Cooldown(lower) <= Cooldown(higher)
    ensures FireRate(lower) * (|Volley(lower)| as real) <= FireRate(higher) * (|Volley(higher)| as real)
  {
  }

  /**
   * The heading wrapped into [0, 360), as the engine's angle sanitiser is taken to do; it
   * differs from its input by a whole number of turns.
   */
  function WrapDegrees(heading: real): (wrapped: real)
    ensures 0.0 <= wrapped < 360.0
    ensures (heading - wrapped) / 360.0 == ((heading - wrapped) / 360.0).Floor as real
    ensures 0.0 <= heading < 360.0 ==> wrapped == heading
  {
    var turns := (heading / 360.0).Floor;
    heading - 360.0 * (turns as real)
  }

  /**
   * The engine normalises the velocity and rescales it to its length capped at MAX_SPEED:
   * at most MAX_SPEED long afterwards, unchanged when already slow enough, and otherwise cut
   * down along its own direction to exactly MAX_SPEED. `len` is the length the engine measured.
   */
  function ClampSpeed(v: Vec2, len: real): (r: Vec2)
    requires 0.0 <= len && len * len == v.Norm2()
    ensures r.Norm2() <= MAX_SPEED * MAX_SPEED
    ensures len <= MAX_SPEED ==> r == v
    ensures len > MAX_SPEED ==> r.Norm2() == MAX_SPEED * MAX_SPEED && r == v.Scale(MAX_SPEED / len)
  {
    if len > MAX_SPEED then
      var k := MAX_SPEED / len;
      assert k * len == MAX_SPEED;
      assert v.Scale(k).Norm2() == (k * len) * (k * len) by {
        calc {
          v.Scale(k).Norm2();
          (k * v.x) * (k * v.x) + (k * v.y) * (k * v.y);
          (k * k) * (v.x * v.x + v.y * v.y);
          (k * k) * (len * len);
          (k * len) * (k * len);
        }
      }
      v.Scale(k)
    else
      assert len * len <= MAX_SPEED * MAX_SPEED by {
        assert len * len <= len * MAX_SPEED <= MAX_SPEED * MAX_SPEED;
      }
      v
  }

  /** The kill rule: a rock, or a shot that is not the player's, ends the ship. */
  predicate KillsShip(other: Entity)
    reads other
    ensures other.kind == AsteroidEntity ==> KillsShip(other)
    ensures other.kind == ProjectileEntity ==> (KillsShip(other) <==> !OwnedByPlayer(other.owner))
    ensures other.kind == UfoEntity || other.kind == PowerUpEntity || other.kind == ShipEntity ==> !KillsShip(other)
  {
    other.kind == AsteroidEntity || (other.kind == ProjectileEntity && !OwnedByPlayer(other.owner))
  }

  /** What the input collaborator reports for one frame. */
  datatype ShipInput = ShipInput(steering: real, acceleration: real, firing: bool)

  class Ship {
    const body: Entity
    /** Degrees. */
    var heading: real
    /** Game time before which the weapon cannot fire again. */
    var nextWeaponFire: real

    constructor ()
      ensures fresh(body) && body.kind == ShipEntity && !body.spawned && !body.destroyed
      ensures body.mass == SHIP_MASS && heading == 0.0 && nextWeaponFire == 0.0
    {
      var b := new Entity(ShipEntity);
      b.mass := SHIP_MASS;
      body := b;
      heading := 0.0;
      nextWeaponFire := 0.0;
    }

    /** Spawning is guarded, so spawning twice is spawning once. */
    method Spawn()
      modifies body`spawned
      ensures body.spawned
    {
      if body.spawned {
        return;
      }
      body.Spawn();
    }

    /** Destruction is guarded: a ship that is not spawned is left alone. */
    method Destroy()
      modifies body`spawned, body`destroyed
      ensures !body.spawned
      ensures old(body.spawned) ==> body.destroyed
      ensures !old(body.spawned) ==> body.destroyed == old(body.destroyed)
    {
      if !body.spawned {
        return;
      }
      body.Destroy();
    }

    /**
     * One-hit destruction: rocks and shots not fired by the player set the kill flag; every
     * other contact (the player's own shots, the UFO, a power-up crate) leaves it alone.
     */
    method OnCollideWith(other: Entity)
      modifies body`destroyed
      ensures body.destroyed == (old(body.destroyed) || KillsShip(other))
      ensures other.kind == UfoEntity || other.kind == PowerUpEntity || other.kind == ShipEntity ==>
        body.destroyed == old(body.destroyed)
      ensures other.kind == ProjectileEntity && OwnedByPlayer(other.owner) ==> body.destroyed == old(body.destroyed)
    {
      if other.kind == AsteroidEntity || (other.kind == ProjectileEntity && !OwnedByPlayer(other.owner)) {
        body.Kill();
      }
    }

    /** The shots of one trigger pull, issued one at a time as the weapon's loop does. */
    method FireWeapon(tier: PowerUpTier) returns (volley: seq<Shot>)
      ensures volley == Volley(tier)
    {
      match tier {
        case WeaponDouble =>
          volley := [];
          for i := 0 to 2
            invariant volley == Volley(tier)[..i]
          {
            volley := volley + [Shot(Vec2(MUZZLE.x, MUZZLE.y + (if i == 0 then -1.0 else 1.0) * DOUBLE_SPREAD), 0.0)];
          }
        case WeaponWide =>
          volley := [];
          for i := 0 to 4
            invariant volley == Volley(tier)[..i]
          {
            var angleOffset := (-0.5 + (i as real) / 3.0) * ARC_WIDTH;
            volley := volley + [Shot(MUZZLE, angleOffset)];
          }
        case _ =>
          volley := [Shot(MUZZLE, 0.0)];
      }
    }

    /**
     * One frame of control: steer, thrust with the speed cap, move, and fire if the trigger is
     * held and the cooldown of the current tier has run out. `direction(h)` is the engine's
     * unit vector for heading `h` (cosine, minus sine) and `length(v)` the length it measures.
     */
    method ProcessInput(input: ShipInput, clock: Clock, tier: PowerUpTier,
                        direction: real -> Vec2, length: Vec2 -> real) returns (volley: seq<Shot>)
      requires forall w :: 0.0 <= length(w) && length(w) * length(w) == w.Norm2()
      modifies this`heading, this`nextWeaponFire, body`velocity, body`position
      ensures input.steering == 0.0 ==> heading == old(heading)
      ensures input.steering != 0.0 ==>
        heading == WrapDegrees(old(heading) + clock.deltaTime * TURN_SPEED * input.steering)
      ensures input.acceleration == 0.0 ==> body.velocity == old(body.velocity)
      ensures input.acceleration != 0.0 ==>
        var v := old(body.velocity).Plus(direction(heading).Scale(input.acceleration * ACCELERATION * clock.deltaTime));
        body.velocity == ClampSpeed(v, length(v)) && body.velocity.Norm2() <= MAX_SPEED * MAX_SPEED
      ensures body.position == old(body.position).Plus(body.velocity.Scale(clock.deltaTime))
      ensures input.firing && clock.time >= old(nextWeaponFire) ==>
        volley == Volley(tier) && nextWeaponFire == clock.time + Cooldown(tier)
      ensures !(input.firing && clock.time >= old(nextWeaponFire)) ==>
        volley == [] && nextWeaponFire == old(nextWeaponFire)
    {
      if input.steering != 0.0 {
        heading := heading + clock.deltaTime * TURN_SPEED * input.steering;
        heading := WrapDegrees(heading);
      }

      if input.acceleration != 0.0 {
        var power := input.acceleration * ACCELERATION * clock.deltaTime;
        var velocity := body.velocity.Plus(direction(heading).Scale(power));
        body.velocity := ClampSpeed(velocity, length(velocity));
      }

      body.position := body.position.Plus(body.velocity.Scale(clock.deltaTime));

      volley := [];
      if input.firing && clock.time >= nextWeaponFire {
        volley := FireWeapon(tier);
        nextWeaponFire := clock.time + 1.0 / FireRate(tier);
      }
    }
  }
}

=== FILE: ui.dfy ===
/**
 * The in-game HUD: the animated score counter, the row of spare-ship icons and the timed
 * info labels. Widget creation, layout, text colours and the pause-menu buttons are drawing
 * and are not modelled; what is kept is which widgets are visible and what they say.
 */
module Hud {
  import opened Common

  /** Seconds the score counter takes to roll from the old score to the new one. */
  const SCORE_COUNTER_DURATION: real := 1.0
  /** Seconds the level label stays up. */
  const LEVEL_DURATION: real := 5.0
  /** Seconds the "unsafe to spawn" warning stays up. */
  const UNSAFE_RESPAWN_DURATION: real := 2.0
  /** Number of ship icons in the HUD. */
  const SHIP_ICON_COUNT: nat := 3

  /** The fixed texts of the info labels. */
  const FIRST_LEVEL_HELP: string := "Destroy all the asteroids"
  const UNSAFE_RESPAWN_HELP: string := "Unsafe to spawn"
  const LEVEL_COMPLETED_CAPTION: string := "SECTOR CLEAR"
  const LEVEL_COMPLETED_HELP: string := "Press ENTER to continue"
  const SHIP_DESTROYED_CAPTION: string := "SHIP DESTROYED"
  const SHIP_DESTROYED_HELP: string := "Press ENTER to respawn"
  const GAME_OVER_CAPTION: string := "GAME OVER"
  const GAME_OVER_HELP: string := "Press ENTER to return to main menu"

  function Min(a: nat, b: nat): nat
  {
    if a < b then a else b
  }

  /** The text of the big info label: a sector number or a fixed caption. */
  datatype Caption = Sector(level: nat) | Message(text: string)

  /** How far through the roll real time `now` is, as a fraction in [0, 1). */
  function RollProgress(ends: real, now: real): (t: real)
    requires ends - SCORE_COUNTER_DURATION <= now < ends
    ensures 0.0 <= t < 1.0
    ensures now == ends - SCORE_COUNTER_DURATION ==> t == 0.0
  {
    1.0 - (ends - now) / SCORE_COUNTER_DURATION
  }

  /** The part of `distance` gained at progress `t`, truncated to a whole number. */
  function Gained(t: real, distance: nat): (gained: nat)
    requires 0.0 <= t < 1.0
    ensures gained <= distance
    ensures t == 0.0 ==> gained == 0
  {
    FractionOfDistance(t, distance as real);
    (t * distance as real).Floor
  }

  lemma FractionOfDistance(t: real, d: real)
    requires 0.0 <= t < 1.0 && 0.0 <= d
    ensures 0.0 <= t * d <= d
  {
    assert d - t * d == (1.0 - t) * d;
  }

  /**
   * The number the counter shows at real time `now` while rolling from `previous` to
   * `target`, the roll ending at `ends`: the fraction of the roll already elapsed times the
   * distance, truncated to a whole number, and the target once the roll is over. `now` is
   * never earlier than the start of the roll.
   */
  function CountedScore(previous: nat, target: nat, ends: real, now: real): (shown: nat)
    requires previous <= target
    requires ends - SCORE_COUNTER_DURATION <= now
    ensures previous <= shown <= target
    ensures now >= ends ==> shown == target
    ensures now == ends - SCORE_COUNTER_DURATION ==> shown == previous
  {
    if now < ends then previous + Gained(RollProgress(ends, now), target - previous) else target
  }

  /** The counter never runs backwards: a later reading of the same roll is never smaller. */
  lemma {:induction false} CountedScoreIsMonotone(previous: nat, target: nat, ends: real, early: real, late: real)
    requires previous <= target
    requires ends - SCORE_COUNTER_DURATION <= early <= late
    ensures CountedScore(previous, target, ends, early) <= CountedScore(previous, target, ends, late)
  {
    if late < ends {
      var tEarly := RollProgress(ends, early);
      var tLate := RollProgress(ends, late);
      assert tEarly <= tLate;
      GainedIsMonotone(tEarly, tLate, target - previous);
      assert CountedScore(previous, target, ends, early) == previous + Gained(tEarly, target - previous);
      assert CountedScore(previous, target, ends, late) == previous + Gained(tLate, target - previous);
    }
  }

  lemma GainedIsMonotone(a: real, b: real, distance: nat)
    requires 0.0 <= a <= b < 1.0
    ensures Gained(a, distance) <= Gained(b, distance)
  {
    var d := distance as real;
    assert b * d - a * d == (b - a) * d;
    assert (a * d).Floor <= (b * d).Floor;
  }

  class UI {
    /** The number on the score label. */
    var currentScore: nat
    /** Where the running roll started. */
    var previousScore: nat
    /** Where the running roll ends. */
    var targetScore: nat
    /** Real time at which the running roll ends; 0 when the counter is idle. */
    var scoreCounterEnds: real
    /** Real time at which the info labels are hidden; 0 when no expiry is armed. */
    var levelFadeEnds: real
    /** Visibility of the three ship icons, left to right. */
    const shipIcons: array<bool>
    var hudVisible: bool
    var pauseMenuVisible: bool
    var levelLabelVisible: bool
    var helpLabelVisible: bool
    var levelText: Caption
    var helpText: string

    /** The counter registers are ordered: the roll runs upwards from previous to target. */
    predicate Valid()
      reads this
    {
      previousScore <= currentScore <= targetScore && shipIcons.Length == SHIP_ICON_COUNT
    }

    /** UI() followed by Create(): everything at zero and the whole HUD hidden. */
    constructor ()
      ensures Valid() && fresh(shipIcons)
      ensures currentScore == previousScore == targetScore == 0
      ensures scoreCounterEnds == 0.0 && levelFadeEnds == 0.0
      ensures !hudVisible && !pauseMenuVisible && !levelLabelVisible && !helpLabelVisible
      ensures levelText == Sector(0) && helpText == ""
    {
      currentScore, previousScore, targetScore := 0, 0, 0;
      scoreCounterEnds, levelFadeEnds := 0.0, 0.0;
      shipIcons := new bool[SHIP_ICON_COUNT](_ => true);
      hudVisible, pauseMenuVisible := false, false;
      levelLabelVisible, helpLabelVisible := false, false;
      levelText, helpText := Sector(0), "";
    }

    /** The counter is rolling iff a roll end time is set; 0 stands for idle. */
    predicate IsUpdatingScore()
      reads this
      ensures IsUpdatingScore() <==> scoreCounterEnds != 0.0
    {
      scoreCounterEnds != 0.0
    }

    /** The info labels are armed to expire iff their end time is set; 0 stands for none. */
    predicate IsFadingLevelLabel()
      reads this
      ensures IsFadingLevelLabel() <==> levelFadeEnds != 0.0
    {
      levelFadeEnds != 0.0
    }

    /** Hiding the HUD also hides both info labels; showing it leaves them as they are. */
    method ToggleHUD(isVisible: bool)
      modifies this`hudVisible, this`levelLabelVisible, this`helpLabelVisible
      ensures hudVisible == isVisible
      ensures !isVisible ==> !levelLabelVisible && !helpLabelVisible
      ensures isVisible ==> levelLabelVisible == old(levelLabelVisible) && helpLabelVisible == old(helpLabelVisible)
    {
      hudVisible := isVisible;
      if !isVisible {
        levelLabelVisible, helpLabelVisible := false, false;
      }
    }

    method TogglePauseMenu(isVisible: bool)
      modifies this`pauseMenuVisible
      ensures pauseMenuVisible == isVisible
    {
      pauseMenuVisible := isVisible;
    }

    /** Shows a score at once, with no roll: all three registers take the value. */
    method SetScore(amount: nat)
      modifies this`currentScore, this`previousScore, this`targetScore
      requires Valid()
      ensures Valid()
      ensures currentScore == amount && previousScore == amount && targetScore == amount
    {
      currentScore := amount;
      targetScore := amount;
      previousScore := amount;
    }

    /**
     * Starts a roll from the number now shown to a target raised by `amount`, ending one
     * counter duration after `realNow`. A roll already running restarts from where it is.
     */
    method AddScore(amount: nat, realNow: real)
      modifies this`previousScore, this`targetScore, this`scoreCounterEnds
      requires Valid()
      ensures Valid()
      ensures previousScore == currentScore == old(currentScore)
      ensures targetScore == old(targetScore) + amount
      ensures scoreCounterEnds == realNow + SCORE_COUNTER_DURATION
    {
      previousScore := currentScore;
      targetScore := targetScore + amount;
      scoreCounterEnds := realNow + SCORE_COUNTER_DURATION;
    }

    /**
     * One frame of the HUD at real time `realNow`, which is not earlier than the start of a
     * running roll: the counter shows CountedScore and goes idle once the roll is over; armed
     * info labels are hidden, and the expiry disarmed, once their time is up.
     */
    method Update(realNow: real)
      modifies this`currentScore, this`scoreCounterEnds, this`levelFadeEnds,
        this`levelLabelVisible, this`helpLabelVisible
      requires Valid()
      requires IsUpdatingScore() ==> scoreCounterEnds - SCORE_COUNTER_DURATION <= realNow
      ensures Valid()
      ensures !old(IsUpdatingScore()) ==> currentScore == old(currentScore) && scoreCounterEnds == old(scoreCounterEnds)
      ensures old(IsUpdatingScore()) ==>
        currentScore == CountedScore(previousScore, targetScore, old(scoreCounterEnds), realNow)
      ensures old(IsUpdatingScore()) && realNow >= old(scoreCounterEnds) ==>
        currentScore == targetScore && !IsUpdatingScore()
      ensures old(IsUpdatingScore()) && realNow < old(scoreCounterEnds) ==> scoreCounterEnds == old(scoreCounterEnds)
      ensures old(IsFadingLevelLabel()) && realNow >= old(levelFadeEnds) ==>
        !IsFadingLevelLabel() && !levelLabelVisible && !helpLabelVisible
      ensures !(old(IsFadingLevelLabel()) && realNow >= old(levelFadeEnds)) ==>
        levelFadeEnds == old(levelFadeEnds) &&
        levelLabelVisible == old(levelLabelVisible) && helpLabelVisible == old(helpLabelVisible)
    {
      if IsUpdatingScore() {
        if realNow < scoreCounterEnds {
          var t := 1.0 - (scoreCounterEnds - realNow) / SCORE_COUNTER_DURATION;
          var gained := (t * (targetScore - previousScore) as real).Floor;
          assert gained >= 0 && previousScore + gained <= targetScore by {
            assert CountedScore(previousScore, targetScore, scoreCounterEnds, realNow) == previousScore + gained;
          }
          currentScore := previousScore + gained;
        } else {
          currentScore := targetScore;
          scoreCounterEnds := 0.0;
        }
      }

      if IsFadingLevelLabel() {
        if realNow >= levelFadeEnds {
          levelFadeEnds := 0.0;
          levelLabelVisible, helpLabelVisible := false, false;
        }
      }
    }

    /** Shows the first min(ships, 3) icons and hides the rest. */
    method SetShipCount(ships: nat)
      modifies shipIcons
      requires Valid()
      ensures forall i :: 0 <= i < shipIcons.Length ==> shipIcons[i] == (i < Min(ships, SHIP_ICON_COUNT))
    {
      var shown := ships;
      if shown > shipIcons.Length {
        shown := shipIcons.Length;
      }
      for i := 0 to shipIcons.Length
        invariant forall j :: 0 <= j < i ==> shipIcons[j] == (j < shown)
      {
        shipIcons[i] := i < shown;
      }
    }

    /**
     * Puts up the big label and, when a help text is given, the small one beneath it, and
     * disarms any pending expiry: the labels stay until something hides them.
     */
    method DisplayInfoLabels(caption: Caption, info: Option<string>)
      modifies this`levelLabelVisible, this`helpLabelVisible, this`levelText, this`helpText, this`levelFadeEnds
      ensures levelLabelVisible && levelText == caption
      ensures helpLabelVisible <==> info.Some?
      ensures info.Some? ==> helpText == info.value
      ensures info.None? ==> helpText == old(helpText)
      ensures levelFadeEnds == 0.0
    {
      levelLabelVisible := true;
      helpLabelVisible := info.Some?;
      levelText := caption;
      if info.Some? {
        helpText := info.value;
      }
      levelFadeEnds := 0.0;
    }

    /** The sector label, with the objective beneath it on the first sector only; it expires. */
    method ShowLevelLabel(level: nat, realNow: real)
      modifies this`levelLabelVisible, this`helpLabelVisible, this`levelText, this`helpText, this`levelFadeEnds
      ensures levelLabelVisible && levelText == Sector(level)
      ensures helpLabelVisible <==> level == 1
      ensures level == 1 ==> helpText == FIRST_LEVEL_HELP
      ensures levelFadeEnds == realNow + LEVEL_DURATION
    {
      if level == 1 {
        DisplayInfoLabels(Sector(level), Some(FIRST_LEVEL_HELP));
      } else {
        DisplayInfoLabels(Sector(level), None);
      }
      levelFadeEnds := realNow + LEVEL_DURATION;
    }

    /** A short-lived warning that the spawn area is not clear. */
    method ShowUnsafeRespawnLabel(realNow: real)
      modifies this`levelLabelVisible, this`helpLabelVisible, this`levelText, this`helpText, this`levelFadeEnds
      ensures levelLabelVisible && helpLabelVisible
      ensures levelText == Message("") && helpText == UNSAFE_RESPAWN_HELP
      ensures levelFadeEnds == realNow + UNSAFE_RESPAWN_DURATION
    {
      DisplayInfoLabels(Message(""), Some(UNSAFE_RESPAWN_HELP));
      levelFadeEnds := realNow + UNSAFE_RESPAWN_DURATION;
    }

    /** The three prompts below stay up (no expiry) until the player confirms. */
    method ShowLevelCompletedLabel()
      modifies this`levelLabelVisible, this`helpLabelVisible, this`levelText, this`helpText, this`levelFadeEnds
      ensures levelLabelVisible && helpLabelVisible && !IsFadingLevelLabel()
      ensures levelText == Message(LEVEL_COMPLETED_CAPTION) && helpText == LEVEL_COMPLETED_HELP
    {
      DisplayInfoLabels(Message(LEVEL_COMPLETED_CAPTION), Some(LEVEL_COMPLETED_HELP));
    }

    method ShowRespawnLabel()
      modifies this`levelLabelVisible, this`helpLabelVisible, this`levelText, this`helpText, this`levelFadeEnds
      ensures levelLabelVisible && helpLabelVisible && !IsFadingLevelLabel()
      ensures levelText == Message(SHIP_DESTROYED_CAPTION) && helpText == SHIP_DESTROYED_HELP
    {
      DisplayInfoLabels(Message(SHIP_DESTROYED_CAPTION), Some(SHIP_DESTROYED_HELP));
    }

    method ShowGameOverLabel()
      modifies this`levelLabelVisible, this`helpLabelVisible, this`levelText, this`helpText, this`levelFadeEnds
      ensures levelLabelVisible && helpLabelVisible && !IsFadingLevelLabel()
      ensures levelText == Message(GAME_OVER_CAPTION) && helpText == GAME_OVER_HELP
    {
      DisplayInfoLabels(Message(GAME_OVER_CAPTION), Some(GAME_OVER_HELP));
    }

    /** Hides both labels; a pending expiry stays armed. */
    method HideInfoLabels()
      modifies this`levelLabelVisible, this`helpLabelVisible
      ensures !levelLabelVisible && !helpLabelVisible
    {
      levelLabelVisible, helpLabelVisible := false, false;
    }
  }

  /** The sum of a list of score awards. */
  function Total(amounts: seq<nat>): nat
  {
    if amounts == [] then 0 else Total(amounts[..|amounts| - 1]) + amounts[|amounts| - 1]
  }

  /**
   * Awards made one after another, at any times, leave the counter's target at the score it
   * started from plus their sum, whatever the counter showed in between.
   */
  method AwardAll(ui: UI, amounts: seq<nat>, times: seq<real>)
    requires ui.Valid() && |times| == |amounts|
    modifies ui
    ensures ui.Valid()
    ensures ui.targetScore == old(ui.targetScore) + Total(amounts)
  {
    for k := 0 to |amounts|
      invariant ui.Valid()
      invariant ui.targetScore == old(ui.targetScore) + Total(amounts[..k])
    {
      assert amounts[..k + 1][..k] == amounts[..k];
      ui.AddScore(amounts[k], times[k]);
    }
    assert amounts[..|amounts|] == amounts;
  }
}
